=== FILE: README.md ===
# eagle-bot core, modelled in Dafny

eagle-bot is the Telegram bot of the E-Agle racing team. This project models its core:

- **Whitelist** (`modules/whitelist.py`). The access check behind the gated commands. A
  dictionary from tags ("@area", "@role", ...) to the Telegram usernames of their members is
  filled from NocoDB. "@everyone" is the merge of all entries. The dictionary is refreshed
  whenever a user is not found at once.
- **NocoDB client** (`modules/nocodb.py`). How tags are listed, and how a tag's members and a
  person's email or username are looked up. Each HTTP response is an input. The model states
  the base URL, the tag entries, the kind check, the member filter and how the answer is read
  from the records. It does not model the other request parameters, the `where` clauses of the
  email and username lookups, or the lookup of the tag's record id.
- **ODG board** (`modules/database.py`, `commands/odg.py`). The agenda of a chat: tasks kept in
  creation order, and the `/odg` command that resets the board, removes a task, adds one or
  shows them.
- **Quiz** (`modules/quiz.py`, `commands/question.py`, `commands/answer.py`). Question
  validity, the `/question` command that sends a quiz poll, and the `/answer` command that lists
  a question's answers.
- **QR codes** (`commands/qr.py`). The `/qr` command: argument parsing, URL normalisation and
  the group gate.
- **Mentions** (`commands/mentions.py`). The handler that finds `@tag` mentions in a message
  and answers with a group's members or with who is in the lab.

Each file is one module:

| file | module |
|---|---|
| `wrappers.dfy` | `Wrappers` (`Option`, `Result`) |
| `text.dfy` | `Text`: the Python string operations the bot relies on (`strip`, `lstrip`, `rstrip`, `replace`, `split`, `count`, `lower`, `int`, `str`) |
| `chat.dfy` | `Chat`: replies, updates, the guards every command shares |
| `nocodb.dfy` | `NocoDB` |
| `whitelist.dfy` | `Whitelist` (a `class` whose dictionary is updated in place) |
| `database.dfy` | `Database` (the `ODG` board is a `class`) |
| `odg.dfy` | `OdgCommand` |
| `quiz.dfy` | `Quiz` |
| `question_id.dfy` | `QuestionId`: the `<question>-<quiz>` id format |
| `question.dfy` | `QuestionCommand` |
| `answer.dfy` | `AnswerCommand` |
| `qr.dfy` | `QrCommand` |
| `mentions.dfy` | `Mentions` |

A handler's reply is a `Chat.Reply`:

- `Silent` means the handler returns without answering.
- `Raised` stands for an exception escaping the handler.
- The other constructors are the Telegram calls the handler makes.

Things outside the model are parameters:

- The services: NocoDB's answers, the link shortener, the lab service, the question store.
- The clock.
- The random draws.

## Model

| member | source | states |
|---|---|---|
| `Text.LStrip` | commands/question.py:24 | the result is a suffix of the input; every dropped character is whitespace; the result does not start with whitespace |
| `Text.RStrip` | commands/question.py:24 | the result is a prefix; every dropped character is whitespace; the result does not end with whitespace |
| `Text.Strip` | commands/question.py:24 | the result neither starts nor ends with whitespace |
| `Text.StripIsInfix` | commands/question.py:24 | the stripped text is the contiguous piece of the input that follows the leading whitespace |
| `Text.StripTrims` | commands/question.py:24 | the stripped text is a piece of the input with only whitespace before and after it |
| `Text.StripKeepsTrimmed` | commands/odg.py:43 | stripping a text that neither starts nor ends with whitespace gives it back unchanged |
| `Text.StripKeepsLower` | modules/nocodb.py:56 | stripping lower-cased text keeps it free of upper-case letters |
| `Text.LStripCharSpec` | modules/whitelist.py:20 | `lstrip("@")` drops exactly the leading run of `@`: the result is a suffix, every dropped character is `@`, and the result does not start with `@` |
| `Text.RStripChar` | modules/nocodb.py:36 | `rstrip("/")` gives a prefix; every dropped character is `/`; the result does not end with `/` |
| `Text.SplitOnce` | commands/question.py:27 | `None` iff the separator is absent; otherwise the input is head, separator, tail, with no separator in the head |
| `Text.SplitOnceAtFirst` | commands/question.py:43-45 | splitting once at a separator absent from the head gives back the head and the tail |
| `Text.Split` | commands/qr.py:38-39 | at least one part; no part holds the separator; joining the parts with the separator gives back the input |
| `Text.SplitJoin` | commands/qr.py:38-39 | splitting a join of separator-free parts gives back the parts |
| `Text.SplitLength` | commands/qr.py:38-39 | a split has one more part than the text has separators, so `count(' ') >= k` guards index `k` |
| `Text.LowerChar` | commands/mentions.py:26 | a lowered character is never upper-case |
| `Text.Lower` | commands/mentions.py:26 | same length, each character lowered, and no upper-case letter left |
| `Text.NatToString` | commands/question.py:56 | the decimal text of a number is non-empty and all digits |
| `Text.NatToStringRoundTrip` | commands/question.py:47 | reading the decimal text of a number gives the number back |
| `Text.WithoutUnderscores` | commands/odg.py:43 | removing the underscores that `int()` allows between digits leaves only digits |
| `Text.WithoutUnderscoresOfDigits` | commands/odg.py:43 | a text of digits has no underscore to remove |
| `Text.IntToStringRoundTrip` | commands/odg.py:43 | `int(str(n)) == n` for every integer |
| `Text.NegRoundTrip` | commands/odg.py:43 | `int(str(n)) == n` for negative integers |
| `Text.NonNegRoundTrip` | commands/odg.py:43 | `int(str(n)) == n` for non-negative integers |
| `Text.ParseInt` | commands/odg.py:43 | `int(s)` succeeds only on a text that holds a digit and no ASCII information separator (U+001C to U+001F, which `int()` does not skip), and a negative result needs a minus sign in the text |
| `Text.SeparatorRejected` | commands/odg.py:43 | an information separator before or after a number makes `int()` fail |
| `Text.ParseTrimmed` | commands/odg.py:43 | once stripped, an accepted text ends in a digit, and a negative result comes from a leading minus sign |
| `Text.Count` | commands/qr.py:38-39 | `count(c)` is at most the length, and zero iff `c` does not occur |
| `Text.IntToString` | commands/odg.py:57 | `str(n)` is non-empty, starts with a minus sign iff `n` is negative, and is otherwise all digits |
| `Text.ReplaceAll` | commands/qr.py:44 | replacing a pattern by itself changes nothing; a replacement no longer than the pattern never lengthens the text |
| `Text.ReplaceAllAbsent` | commands/question.py:23 | `replace` leaves a text that does not contain the pattern unchanged |
| `Text.ReplaceAllJoin` | commands/qr.py:44 | on pieces in which the pattern cannot start, joined by the pattern, `replace` gives the same pieces joined by the replacement |
| `Chat.CommandGuard` | commands/question.py:12-20 | the handler goes on iff the update is neither an edit nor a reaction and has a username; edits and reactions get no reply; a missing username gets the "need a username" reply |
| `Chat.Clean` | commands/question.py:23-24 | the cleaned command text neither starts nor ends with whitespace |
| `Chat.AfterFirstSpace` | commands/question.py:27 | `None` iff there is no space; otherwise the text is a space-free head, one space, then the result |
| `Chat.CommandArgument` | commands/question.py:23-27 | a command word, a space and a trimmed argument, in a text that does not mention the bot, give back exactly the argument |
| `NocoDB.ParseKind` | modules/nocodb.py:80-104 | a kind name is accepted iff it is the name of one of the four kinds, and is mapped to that kind |
| `NocoDB.NewClient` | modules/nocodb.py:34-36 | the stored base URL is the given one without its trailing slashes, and ends in no slash |
| `NocoDB.TagEntry` | modules/nocodb.py:56 | an entry is `@` followed by the lower-cased tag with its surrounding whitespace cut off; it has no upper-case letter and neither starts nor ends with whitespace after the `@` |
| `NocoDB.TagEntryIdempotent` | modules/nocodb.py:56 | formatting the name of an entry gives back the same entry |
| `NocoDB.TagsForTable` | modules/nocodb.py:47-56 | one entry per record, in order, each the formatted tag of its record |
| `NocoDB.Usernames` | modules/nocodb.py:136 | at most one username per record, none of them empty |
| `NocoDB.UsernamesAppend` | modules/nocodb.py:136 | the usernames of two record lists are the usernames of each, in order |
| `NocoDB.UsernamesMembership` | modules/nocodb.py:136 | a name is returned iff some record holds it as a non-empty Telegram username |
| `NocoDB.IdStrings` | modules/nocodb.py:119 | one decimal string per linked id, in order |
| `NocoDB.MemberFilter` | modules/nocodb.py:119-126 | the member query is `(Id,in,...)`, closed by a parenthesis |
| `NocoDB.MemberFilterListsIds` | modules/nocodb.py:119-126 | for a non-empty id list, the comma-separated list inside the member query reads back as exactly the linked ids, in order |
| `NocoDB.Members` | modules/nocodb.py:68-136 | an unsupported kind raises `unsupported kind`; otherwise the kind's table (the one its tag list comes from), link and view are queried and the request for the tag's record is `(Tag,like,<tag>)`, the member request is `(Id,in,<ids>)` for the linked ids, and the usernames are the non-empty usernames of the member records, in response order and with repeats |
| `NocoDB.FirstField` | modules/nocodb.py:161-163 | `None` iff no record matched; otherwise the field of the first record, or "" when it lacks the field |
| `NocoDB.EmailFromUsername` | modules/nocodb.py:138-163 | `None` iff no record matched the username; otherwise the first record's team email, or "" when it has none |
| `NocoDB.UsernameFromEmail` | modules/nocodb.py:165-182 | `None` iff no record matched the email; otherwise the first record's username, or "" when it has none |
| `Whitelist.FillKind` | modules/whitelist.py:19-20 | after one kind's loop the keys are the old keys plus the kind's tags |
| `Whitelist.Filled` | modules/whitelist.py:16-26 | after the four loops the keys are the old keys plus every tag of every kind; none is dropped |
| `Whitelist.IsRefresh` | modules/whitelist.py:16-32 | a refresh's keys are the keys after the four loops plus "@everyone" |
| `Whitelist.FillKindStep` | modules/whitelist.py:19-20 | each step of a kind's loop assigns one tag its members, looked up under the tag without its `@` |
| `Whitelist.FillKindAt` | modules/whitelist.py:19-26 | after one kind's loop, a tag is a key iff it was one or is listed; a listed tag holds the members of its name; any other key is unchanged |
| `Whitelist.FilledAt` | modules/whitelist.py:16-26 | after the four loops, the kind that lists a tag last decides its members; keys of tags no kind lists keep their value |
| `Whitelist.ListOf` | modules/whitelist.py:29-32 | `list(all_members)` lists each member of the set once and nothing else |
| `Whitelist.AllMembers` | modules/whitelist.py:29-31 | the merge holds exactly the members of every entry |
| `Whitelist.Whitelist.constructor` | modules/whitelist.py:6-14 | the new whitelist keeps the tag cache and its dictionary is a refresh of the empty one |
| `Whitelist.Whitelist.FillTags` | modules/whitelist.py:19-26 | the dictionary after the loop is the old one with each listed tag assigned its members |
| `Whitelist.Whitelist.UpdateCache` | modules/whitelist.py:16-36 | the new dictionary is a refresh of the old: the four loops, then "@everyone" set to the duplicate-free merge of every entry |
| `Whitelist.Whitelist.IsUserWhitelisted` | modules/whitelist.py:38-57 | if a tag names the user or lists them, the answer is yes and the cache is untouched; otherwise the cache is refreshed and the answer is whether a tag lists the user now |
| `Whitelist.FirstPass` | modules/whitelist.py:44-49 | the first loop finds a tag iff some tag names the user or lists them |
| `Whitelist.SecondPass` | modules/whitelist.py:53-55 | the second loop finds a tag iff some tag lists the user |
| `Whitelist.Admits` | commands/answer.py:23-25 | with the feature off every user is admitted and the cache is untouched; with it on, the admission is that of `is_user_whitelisted` |
| `Whitelist.RefreshKeepsKeys` | modules/whitelist.py:16-26 | a refresh never drops a key, and a tag no longer in the tag cache keeps its old members |
| `Whitelist.RefreshedTag` | modules/whitelist.py:19-26 | after a refresh, a cached tag holds NocoDB's current members for its name |
| `Whitelist.EveryoneCoversEntries` | modules/whitelist.py:28-32 | after a refresh, every member of every entry is in "@everyone" |
| `Whitelist.EveryoneGrows` | modules/whitelist.py:28-32 | a refresh never removes anybody from "@everyone" |
| `Whitelist.FirstRefreshEveryoneIsUnion` | modules/whitelist.py:28-32 | on the first refresh, "@everyone" holds exactly the members of the other entries |
| `Whitelist.RemovedMemberStaysInEveryone` | modules/whitelist.py:28-32 | a user dropped from their only tag is still in "@everyone" after the next refresh |
| `Database.TaskString` | modules/database.py:21-24 | a task's text starts with the clipboard mark, and its length accounts for the text, the author and the fixed characters |
| `Database.TaskStringParts` | modules/database.py:21-24 | for a one-line task text, the rendering after the clipboard mark splits at its first line break into the text and the author line |
| `Database.Insert` | modules/database.py:38 | placing a task into the creation order adds one element, and it is the new task |
| `Database.InsertPermutes` | modules/database.py:38 | placing a new task into the creation order adds exactly that task |
| `Database.InsertKeepsOrder` | modules/database.py:38 | placing a new task keeps the board ordered by creation time |
| `Database.InsertNewest` | modules/database.py:17 | a task created no earlier than all others goes at the end |
| `Database.TaskStrings` | modules/database.py:38 | one rendering per task, in order |
| `Database.Render` | modules/database.py:32-38 | no task renders as the empty message, one task as its own text |
| `Database.RenderEmptyIff` | modules/database.py:32-38 | the board renders as "ODG list is empty." iff it has no tasks |
| `Database.RenderAppend` | modules/database.py:38 | a new last task adds one blank-line-separated paragraph at the end |
| `Database.OffsetRow` | modules/database.py:51 | as written, `limit(1, offset=i)` selects an existing row or nothing |
| `Database.TaskRow` | modules/database.py:47-55 | as intended, index `i` selects row `i` iff it is in range |
| `Database.NegativeOffsetSelectsFirst` | modules/database.py:51 | the two agree on every index from 0 up; a negative index selects the first task as written, and none as intended |
| `Database.ODG.constructor` | commands/odg.py:31-32 | a new board has the chat and thread ids and no tasks |
| `Database.ODG.ToString` | modules/database.py:32-38 | the board renders as the empty message iff it has no tasks |
| `Database.ODG.Reset` | modules/database.py:40-45 | no task is left |
| `Database.ODG.RemoveTask` | modules/database.py:47-55 | as intended (the corrected half of the first row under Findings): the result is true iff the index is in range; then exactly that task goes and the rest keep their order; otherwise nothing changes |
| `Database.ODG.AddTask` | commands/odg.py:60-65 | the board gains exactly the new task and stays in creation order; a newest task goes at the end |
| `OdgCommand.ThirdField` | commands/odg.py:43 | `split(' ', 2)[2]` exists iff the text holds at least two spaces |
| `OdgCommand.ThirdFieldOf` | commands/odg.py:43 | the third field of two space-free words and a rest is that rest |
| `OdgCommand.Decode` | commands/odg.py:35-76 | "/odg reset" is checked before "/odg remove", and both before "/odg "; a parsed task number needs a third field; an added task's text is missing iff the cleaned text has no space |
| `OdgCommand.DecodeRemoveField` | commands/odg.py:41-43 | "/odg remove x" asks to remove `int(x)` |
| `OdgCommand.DecodeRemove` | commands/odg.py:41-43 | "/odg remove n" asks to remove task n for every integer n |
| `OdgCommand.DecodeAdd` | commands/odg.py:60-62 | "/odg text" asks to add exactly that text, when it is trimmed, the command does not mention the bot and the text does not start like reset or remove |
| `OdgCommand.RunCommand` | commands/odg.py:35-76 | reset empties the board; remove n deletes the n-th task when 1 <= n <= count and otherwise says not found; a bad number says so; add inserts exactly the new task; show renders the board |
| `OdgCommand.HandleOdg` | commands/odg.py:11-76 | the guards, the rollback when an added task has no text, the board fetched or created, and each command's reply and new task list |
| `Quiz.IsValid` | modules/quiz.py:51-62 | a valid question has exactly one correct answer, every other answer being wrong |
| `Quiz.CorrectCount` | modules/quiz.py:60 | the number of correct answers is at most the number of answers, and zero iff none is correct |
| `Quiz.CorrectCountAppend` | modules/quiz.py:60 | the count adds up over concatenation |
| `Quiz.OneCorrect` | modules/quiz.py:60 | a count of one means exactly one answer is correct |
| `QuestionId.ParseQuestionId` | commands/question.py:38-45 | a parsed id gives two non-empty digit strings joined by `-` |
| `QuestionId.ParseMatchesPattern` | commands/question.py:38 | an id parses iff it fully matches `\d+-\d+` |
| `QuestionId.ParsedMatches` | commands/question.py:38 | every parsed id matches the pattern |
| `QuestionId.MatchedParses` | commands/question.py:38 | every id matching the pattern parses |
| `QuestionId.FormatParseRoundTrip` | commands/question.py:43-47 | the id of question q in quiz z parses back to q and z |
| `QuestionCommand.Options` | commands/question.py:58 | one option per answer: its text, in order |
| `QuestionCommand.CorrectIndices` | commands/question.py:59 | every listed position holds a correct answer |
| `QuestionCommand.CorrectIndicesIncreasing` | commands/question.py:59 | the positions are strictly increasing |
| `QuestionCommand.CorrectIndicesComplete` | commands/question.py:59 | every correct answer's position is listed, and there are as many positions as correct answers |
| `QuestionCommand.QuestionMedia` | commands/question.py:66-77 | no image sends the text; one image sends a photo of its URL captioned with the text; several send one photo per image, in order, then the text |
| `QuestionCommand.AskQuestion` | commands/question.py:53-88 | a poll is sent iff there are options and a correct one; its options are the answers and its correct option is the first correct answer |
| `QuestionCommand.ValidQuestionIsAsked` | commands/question.py:58-64 | a valid question is always sent as a poll, with 2 to 12 options, its single correct answer marked |
| `QuestionCommand.FirstValidDraw` | commands/question.py:33-35 | the loop stops at the first valid draw, and finds none iff no draw is valid |
| `QuestionCommand.AskRandom` | commands/question.py:30-35 | an empty store raises at `random(1)[0]`; otherwise the first valid draw is asked, and the loop is still drawing iff no draw is valid |
| `QuestionCommand.ById` | commands/question.py:38-51 | a malformed id gets the format reply; a well-formed id naming a valid question is asked; otherwise "no valid question" |
| `QuestionCommand.HandleQuestion` | commands/question.py:11-88 | the guards; with no id, the random branch of `AskRandom` (raise on an empty store, else the first valid draw); otherwise the question by id |
| `AnswerCommand.AnswerLine` | commands/answer.py:55-56 | a line is one mark, a space and the answer text |
| `AnswerCommand.AnswerLineReadBack` | commands/answer.py:55-56 | the mark is the check mark iff the answer is correct, and the text follows it |
| `AnswerCommand.FormatAnswers` | commands/answer.py:53-56 | the loop builds one line per answer, in order |
| `AnswerCommand.AnswersHtml` | commands/answer.py:60-62 | the reply starts with the bold header naming the question and quiz; no line leaves the header alone, one line follows it directly |
| `AnswerCommand.AnswersReadBack` | commands/answer.py:53-62 | when no answer spans several lines, the reply's lines give back every answer's correctness and text, in order |
| `AnswerCommand.AnswerAfterGate` | commands/answer.py:27-62 | a malformed id gets the format reply, an unknown question "not found", and a known one its answer list |
| `AnswerCommand.HandleAnswer` | commands/answer.py:11-62 | the guards; with the whitelist off everyone passes; with it on, a user named or listed by a quiz tag passes at once, otherwise the cache is refreshed and the user passes iff a quiz tag lists them now; then the reply after the gate |
| `QrCommand.UrlArgument` | commands/qr.py:38 | a URL argument exists iff the text holds a space, and it has no space in it |
| `QrCommand.CodeArgument` | commands/qr.py:39 | a code argument exists iff the text holds two spaces, and it has no space in it |
| `QrCommand.QrArguments` | commands/qr.py:38-39 | "/qr url code" gives back the URL and the code |
| `QrCommand.NormalizeUrlAsWritten` | commands/qr.py:42-46 | as written: the result starts with `https://`; a secure URL is kept; a plain-HTTP URL gets `https://` and every further `http://` in it replaced; anything else gets `https://` in front |
| `QrCommand.NormalizeUrlAsWrittenIdempotent` | commands/qr.py:42-46 | normalising twice as written is normalising once |
| `QrCommand.NormalizationsAgree` | commands/qr.py:42-46 | without a second `h` after the scheme, the normalisation as written and the intended one agree |
| `QrCommand.NormalizeUrl` | commands/qr.py:41-43 | as intended (only the scheme changes): the URL starts with `https://`; a secure URL is kept; `http://` is replaced by `https://` once, at the front; anything else gets `https://` in front |
| `QrCommand.NormalizeUrlIdempotent` | commands/qr.py:41-43 | normalising twice as intended is normalising once |
| `QrCommand.NestedLinkRewritten` | commands/qr.py:44 | as written, `http://a?u=http://b` becomes `https://a?u=https://b`; the corrected normalisation keeps the inner link |
| `QrCommand.HttpIsNotHttps` | commands/qr.py:42-43 | a plain-HTTP URL does not start with the secure scheme |
| `QrCommand.QrReply` | commands/qr.py:25-62 | a chat outside the QR groups is refused; a missing or empty URL gets the usage text; otherwise the URL is normalised as written and shortened with the given code: a short URL gives its photo, and only a failed shortening gives the error text |
| `QrCommand.HandleQr` | commands/qr.py:9-62 | the guards; with the whitelist off everyone passes; with it on, a user named or listed by a general tag passes at once, otherwise the cache is refreshed and the user passes iff a general tag lists them now; then the reply after the gate |
| `Mentions.RunLengthSpec` | commands/mentions.py:27 | the run after an `@` is made of tag characters and is as long as it can be |
| `Mentions.FindTags` | commands/mentions.py:27 | a text without `@` has no match (what each match is: the two lemmas below) |
| `Mentions.FindTagsComplete` | commands/mentions.py:27 | every `@` followed by a tag character starts a match, which takes the whole run |
| `Mentions.FindTagsSound` | commands/mentions.py:27 | every match is an `@` followed by the whole run of tag characters after it |
| `Mentions.FindTagsNoUpper` | commands/mentions.py:26-27 | a match in text without upper-case letters has none either |
| `Mentions.FoundTagsAreLower` | commands/mentions.py:26-27 | every tag found in a lowered message is lower-case |
| `Mentions.Classify` | commands/mentions.py:39-70 | "@inlab" goes to the lab; otherwise a tag goes to a kind whose tags list it and no earlier kind (areas, workgroups, projects, roles) lists it, or nowhere when no kind lists it |
| `Mentions.InLabReply` | commands/mentions.py:41-60 | a count of zero gets "Nobody is in the lab"; otherwise the reply raises iff some email has no username |
| `Mentions.TagReply` | commands/mentions.py:39-76 | the lab tag always answers; an unknown tag never does; a group tag answers iff it has members |
| `Mentions.HandleMentions` | commands/mentions.py:10-76 | the guards, then no reply iff no found tag answers; any reply is the answer of a found tag |

## Left out

- Network, logging and the Telegram API. Every NocoDB, link-shortener, lab-service and database
  answer is an input to the operation that reads it.
- `asyncio` concurrency and the scheduler (`modules/scheduler.py`). The model is sequential.
- The refresh runs synchronously inside `is_user_whitelisted`. `_update_cache` updates the
  dictionary in place and never clears it, so "@everyone" absorbs its previous value and only
  grows (`EveryoneGrows`, `RemovedMemberStaysInEveryone`). Tags that leave the tag cache keep
  their old members (`RefreshKeepsKeys`).
- During a refresh, `nocodb.members` is the parameter `MembershipSource`. `NocoDB.Members`
  models its queries, taking the linked ids of the tag's record as an input. So the
  `IndexError` raised when no record matches the tag (`modules/nocodb.py:111`) is not modelled.
- `str.lower`, `\w` and `\d` are modelled for ASCII only. Python also folds and matches other
  Unicode letters and digits.
- `int()` on non-ASCII digits is not modelled; only ASCII digits, signs and underscores are.
  Around the number, `int()` skips the whitespace of `strip()` except the information
  separators U+001C to U+001F; a text holding one of those is rejected (`Text.ParseInt`).
- The order of "@everyone" comes from a Python `set`. The model allows any order without
  repetition.
- The order in which the mention handler visits the found tags comes from a Python `set`. The
  model allows any order.
- `Questions.select().random(1)` is a finite sequence of draws, plus a flag saying whether the
  store is empty. On an empty store, `random(1)[0]` raises. When no draw is valid, the outcome
  is `StillDrawing`: the source keeps drawing, and loops forever if the store holds questions
  but none of them is valid.
- The question's images come from the store as paths; the media sent is modelled as the URLs
  built from them.
- The `Polls` record stored after a poll (`commands/question.py:91`) is not modelled; the poll
  carries the same correct option.
- Tasks created at the same instant are kept in insertion order; SQLite may return such ties in
  another order.
- `QuestionCommand.HandleQuestion`, `AnswerCommand.HandleAnswer`: the store's schema is taken
  from the handlers, not from `modules/quiz.py`. The handlers import a `Polls` table
  (`commands/question.py:3`) and log `Questions.areas` (`commands/question.py:62,79`,
  `commands/answer.py:58`), but `modules/quiz.py` defines neither. Read against that file,
  `/question` fails at import and `/answer` raises `AttributeError` before it replies. The model
  assumes both exist.
- `OdgCommand.RunCommand`, `OdgCommand.HandleOdg`: removing goes through the corrected
  `Database.ODG.RemoveTask`, so "/odg remove n" for any n <= 0 answers "not found". As written, the source
  deletes the first task (see the first row under Findings; `Database.NegativeOffsetSelectsFirst`).
- `QrCommand.QrReply`, `QrCommand.HandleQr`: the URL is normalised as written
  (`NormalizeUrlAsWritten`), which rewrites nested links (see the second row under Findings).
- A missing first or last name of the sender is "" (the source's `or ""`).
- The `eagle_api.inlab()` call is the input `InLabData`; the lab service is not part of this
  model.
- `Database.ODG.AddTask`: the board's order is stated as a multiset plus the creation order, not
  as the position of the new task, except when it is the newest.
- `QuestionCommand.CorrectIndices`: its own contract states only soundness. Order and
  completeness are `CorrectIndicesIncreasing` and `CorrectIndicesComplete`.
- `Mentions.HandleMentions`: which found tag answers when several would is left open, since it
  depends on set iteration order.

## Findings

| source | as written | input that shows it | evidently intended | confidence | as-written member | corrected member |
|---|---|---|---|---|---|---|
| modules/database.py:51 | `remove_task(task_id - 1)` passes a negative offset for "/odg remove n" with n <= 0, and SQLite reads a negative OFFSET as 0 | "/odg remove 0" (or "/odg remove -3") on a non-empty board deletes task #1 and reacts with a thumbs-up | task numbers below 1 are reported as not found | medium, not executed | `Database.NegativeOffsetSelectsFirst` | `Database.ODG.RemoveTask` |
| commands/qr.py:44 | `url.replace('http://', 'https://')` rewrites every `http://` in the URL | `/qr http://a.example/?next=http://b.example` shortens `https://a.example/?next=https://b.example` | only the scheme is upgraded | high, not executed | `QrCommand.NestedLinkRewritten` | `QrCommand.NormalizeUrl` |

=== FILE: answer.dfy ===
/** The `/answer` command: the answers of a question, each marked right or wrong. */
module AnswerCommand {
  import opened Wrappers
  import opened Text
  import opened Chat
  import opened Quiz
  import opened QuestionId
  import Whitelist

  const BadIdFormat := "Invalid question ID format. Use &lt;question_id&gt;-&lt;quiz_id&gt;."
  const Right := '\U{2705}'
  const Wrong := '\U{274C}'

  function QuestionNotFound(id: string): string
  {
    "Question with ID " + id + " not found."
  }

  /** `f"{indicator} {ans.answer_text}"`: a check mark for a correct answer, a cross otherwise. */
  function AnswerLine(a: Answer): (r: string)
    ensures |r| == |a.text| + 2 && r[1] == ' '
  {
    [if a.isCorrect then Right else Wrong] + " " + a.text
  }

  /** The mark and the text can be read back from a line. */
  lemma AnswerLineReadBack(a: Answer)
    ensures AnswerLine(a)[0] == Right <==> a.isCorrect
    ensures AnswerLine(a)[2..] == a.text
  {
  }

  /** One line per answer, in order. */
  function AnswerLines(answers: seq<Answer>): seq<string>
  {
    seq(|answers|, i requires 0 <= i < |answers| => AnswerLine(answers[i]))
  }

  /** The loop building `answer_texts`. */
  method FormatAnswers(answers: seq<Answer>) returns (lines: seq<string>)
    ensures lines == AnswerLines(answers)
  {
    lines := [];
    for i := 0 to |answers|
      invariant |lines| == i
      invariant forall j :: 0 <= j < i ==> lines[j] == AnswerLine(answers[j])
    {
      lines := lines + [AnswerLine(answers[i])];
    }
    assert lines == AnswerLines(answers);
  }

  function AnswersHeader(question: string, quiz: string): string
  {
    "<b>Answers for Question ID " + question + " in Quiz ID " + quiz + ":</b>\n"
  }

  /** The reply body: the header, then the lines joined by line breaks. */
  function AnswersHtml(question: string, quiz: string, lines: seq<string>): (r: string)
    ensures |AnswersHeader(question, quiz)| <= |r| && r[..|AnswersHeader(question, quiz)|] == AnswersHeader(question, quiz)
    ensures lines == [] ==> r == AnswersHeader(question, quiz)
    ensures |lines| == 1 ==> r == AnswersHeader(question, quiz) + lines[0]
  {
    AnswersHeader(question, quiz) + Join(lines, "\n")
  }

  /** When no answer spans several lines, the lines of the body give back every answer, its
      correctness and its text, in order. */
  lemma AnswersReadBack(answers: seq<Answer>)
    requires answers != []
    requires forall i :: 0 <= i < |answers| ==> '\n' !in answers[i].text
    ensures var back := Split(Join(AnswerLines(answers), "\n"), '\n');
      && |back| == |answers|
      && forall i :: 0 <= i < |answers| ==>
           |back[i]| >= 2 && (back[i][0] == Right <==> answers[i].isCorrect) && back[i][2..] == answers[i].text
  {
    var lines := AnswerLines(answers);
    forall i | 0 <= i < |lines| ensures '\n' !in lines[i] {
      var l := lines[i];
      AnswerLineReadBack(answers[i]);
      assert l == l[..2] + l[2..];
      assert l[0] != '\n' && l[1] != '\n';
    }
    assert "\n" == ['\n'];
    SplitJoin(lines, '\n');
    forall i | 0 <= i < |answers| ensures (lines[i][0] == Right <==> answers[i].isCorrect) && lines[i][2..] == answers[i].text {
      AnswerLineReadBack(answers[i]);
    }
  }

  /** What the handler answers once the sender is through the whitelist gate. */
  method AnswerAfterGate(text: string, lookup: (nat, nat) -> Option<Question>) returns (reply: Reply)
    ensures
      var id := AfterFirstSpace(Clean(text));
      if id.None? || ParseQuestionId(id.value).None? then reply == Html(BadIdFormat)
      else
        var (question, quiz) := ParseQuestionId(id.value).value;
        match lookup(DigitsValue(question), DigitsValue(quiz))
        case None => reply == Html(QuestionNotFound(id.value))
        case Some(q) => reply == Html(AnswersHtml(question, quiz, AnswerLines(q.answers)))
  {
    var id := AfterFirstSpace(Clean(text));
    if id.None? || ParseQuestionId(id.value).None? {
      return Html(BadIdFormat);
    }
    var (question, quiz) := ParseQuestionId(id.value).value;
    var found := lookup(DigitsValue(question), DigitsValue(quiz));
    if found.None? {
      return Html(QuestionNotFound(id.value));
    }
    var lines := FormatAnswers(found.value.answers);
    reply := Html(AnswersHtml(question, quiz, lines));
  }

  /** The `/answer` handler. `enabled` is the whitelist feature switch, `quizTags` the tags allowed
      to use quiz commands, `lookup` is `Questions.get(id=..., quiz=...)`. `allowed` says whether
      the whitelist gate let the sender through. */
  method HandleAnswer(u: Update, enabled: bool, wl: Whitelist.Whitelist, quizTags: seq<string>,
                      source: Whitelist.MembershipSource, lookup: (nat, nat) -> Option<Question>)
    returns (reply: Reply, allowed: bool)
    modifies wl
    ensures CommandGuard(u).Some? ==> reply == CommandGuard(u).value && wl.whitelist == old(wl.whitelist)
    ensures CommandGuard(u).None? && !allowed ==> reply == Silent
    ensures CommandGuard(u).None? && !enabled ==> allowed && wl.whitelist == old(wl.whitelist)
    ensures CommandGuard(u).None? && enabled && !allowed ==>
      !Whitelist.Listed(wl.whitelist, "@" + u.username, quizTags)
    ensures CommandGuard(u).None? && enabled && Whitelist.FirstPassGrants(old(wl.whitelist), "@" + u.username, quizTags) ==>
      allowed && wl.whitelist == old(wl.whitelist)
    ensures CommandGuard(u).None? && enabled && !Whitelist.FirstPassGrants(old(wl.whitelist), "@" + u.username, quizTags) ==>
      && Whitelist.IsRefresh(old(wl.whitelist), wl.whitelist, wl.tagCache, source)
      && (allowed <==> Whitelist.Listed(wl.whitelist, "@" + u.username, quizTags))
    ensures CommandGuard(u).None? && allowed ==>
      var id := AfterFirstSpace(Clean(u.text));
      if id.None? || ParseQuestionId(id.value).None? then reply == Html(BadIdFormat)
      else
        var (question, quiz) := ParseQuestionId(id.value).value;
        match lookup(DigitsValue(question), DigitsValue(quiz))
        case None => reply == Html(QuestionNotFound(id.value))
        case Some(q) => reply == Html(AnswersHtml(question, quiz, AnswerLines(q.answers)))
  {
    match CommandGuard(u)
    case Some(r) =>
      return r, false;
    case None =>
    allowed := Whitelist.Admits(enabled, wl, u.username, quizTags, source);
    if !allowed {
      return Silent, false;
    }
    reply := AnswerAfterGate(u.text, lookup);
  }
}

=== FILE: chat.dfy ===
/** What a command handler sends back to the chat, and the text cleaning every command applies. */
module Chat {
  import opened Wrappers
  import opened Text

  datatype Reply =
    | Silent                  // the handler returns without answering
    | PlainText(text: string) // reply_text
    | Html(html: string)      // reply_html
    | Reaction(emoji: string) // set_reaction on the command message
    | Photo(image: string, caption: string) // reply_photo; `image` names the picture sent
    | Raised                  // the handler raised an exception; nothing is sent

  const BotMention := "@eagletrtbot"

  const NeedUsername := "You need a Telegram username to use this command."

  /** The parts of a Telegram update the handlers read; an absent username or text is "". */
  datatype Update = Update(isEdit: bool, isReaction: bool, username: string, text: string)

  /** The opening guards every command shares: edits and reactions are ignored, and a sender
      without a username is told to set one. `None` lets the command go on. */
  function CommandGuard(u: Update): (r: Option<Reply>)
    ensures r == None <==> !u.isEdit && !u.isReaction && u.username != ""
    ensures r.Some? && (u.isEdit || u.isReaction) ==> r.value == Silent
    ensures r.Some? && !u.isEdit && !u.isReaction ==> r.value == Html(NeedUsername)
  {
    if u.isEdit || u.isReaction then Some(Silent)
    else if u.username == "" then Some(Html(NeedUsername))
    else None
  }

  /** `text.replace("@eagletrtbot", "").strip()`: the command text without the bot's mention. */
  function Clean(raw: string): (r: string)
    ensures r == [] || (!IsSpace(r[0]) && !IsSpace(r[|r| - 1]))
  {
    Strip(ReplaceAll(raw, BotMention, ""))
  }

  /** `text.split(' ', 1)[1] if ' ' in text else None`: what follows the first space. */
  function AfterFirstSpace(text: string): (r: Option<string>)
    ensures r.None? <==> ' ' !in text
    ensures r.Some? ==> |r.value| < |text|
    ensures r.Some? ==>
      var head := text[..|text| - |r.value| - 1];
      ' ' !in head && text == head + " " + r.value
  {
    match SplitOnce(text, ' ')
    case None => None
    case Some((head, tail)) => Some(tail)
  }

  /** A command word followed by a space and a trimmed argument, without the bot's mention,
      hands that argument back unchanged. */
  lemma CommandArgument(command: string, argument: string)
    requires command != [] && !IsSpace(command[0]) && ' ' !in command
    requires argument != [] && !IsSpace(argument[0]) && !IsSpace(argument[|argument| - 1])
    requires !Contains(command + " " + argument, BotMention)
    ensures AfterFirstSpace(Clean(command + " " + argument)) == Some(argument)
  {
    var raw := command + " " + argument;
    ReplaceAllAbsent(raw, BotMention, "");
    assert raw[|raw| - 1] == argument[|argument| - 1];
    StripKeepsTrimmed(raw);
    SplitOnceAtFirst(command, ' ', argument);
  }
}

=== FILE: database.dfy ===
/** The agenda store: tasks and the per-chat ODG ("ordine del giorno") boards that hold them. */
module Database {
  import opened Wrappers
  import opened Text

  /** A stored task; `createdAt` is the creation timestamp, in clock ticks. */
  datatype Task = Task(text: string, createdBy: string, createdAt: int)

  const Clipboard := "\U{1F4CB} "
  const Person := "\n\U{1F464} "
  const EmptyMessage := "ODG list is empty."

  /** `str(task)`: the text after a clipboard, the author after a person on the next line. */
  function TaskString(t: Task): (r: string)
    ensures StartsWith(r, Clipboard) && |r| == |t.text| + |t.createdBy| + 5
  {
    Clipboard + t.text + Person + t.createdBy
  }

  /** A task whose text has no line break can be read back from its rendering. */
  lemma TaskStringParts(t: Task)
    requires '\n' !in t.text
    ensures var r := TaskString(t);
      SplitOnce(r[2..], '\n') == Some((t.text, "\U{1F464} " + t.createdBy))
  {
    var r := TaskString(t);
    assert r[2..] == t.text + ['\n'] + ("\U{1F464} " + t.createdBy);
    SplitOnceAtFirst(t.text, '\n', "\U{1F464} " + t.createdBy);
  }

  /** The order of `tasks.order_by(Task.created_at)`. */
  predicate ByCreation(ts: seq<Task>)
  {
    forall i, j :: 0 <= i < j < |ts| ==> ts[i].createdAt <= ts[j].createdAt
  }

  /** Where a new task lands in the creation order: after every task created no later. */
  function Insert(ts: seq<Task>, t: Task): (r: seq<Task>)
    ensures |r| == |ts| + 1 && t in r
  {
    if ts == [] || ts[|ts| - 1].createdAt <= t.createdAt then ts + [t]
    else Insert(ts[..|ts| - 1], t) + [ts[|ts| - 1]]
  }

  /** Inserting adds the new task and keeps every other. */
  lemma {:induction false} InsertPermutes(ts: seq<Task>, t: Task)
    ensures multiset(Insert(ts, t)) == multiset(ts) + multiset{t}
    ensures |Insert(ts, t)| == |ts| + 1
  {
    if !(ts == [] || ts[|ts| - 1].createdAt <= t.createdAt) {
      var init, last := ts[..|ts| - 1], ts[|ts| - 1];
      assert ts == init + [last];
      InsertPermutes(init, t);
    }
  }

  /** Every task was created no later than `bound`. */
  predicate CreatedBy(ts: seq<Task>, bound: int)
  {
    forall i :: 0 <= i < |ts| ==> ts[i].createdAt <= bound
  }

  /** Inserting a task created no later than `bound` keeps every task no later than `bound`. */
  lemma {:induction false} InsertBounded(ts: seq<Task>, t: Task, bound: int)
    requires CreatedBy(ts, bound) && t.createdAt <= bound
    ensures CreatedBy(Insert(ts, t), bound)
  {
    if !(ts == [] || ts[|ts| - 1].createdAt <= t.createdAt) {
      var init := ts[..|ts| - 1];
      assert CreatedBy(init, bound);
      InsertBounded(init, t, bound);
    }
  }

  /** Inserting keeps the creation order. */
  lemma {:induction false} InsertKeepsOrder(ts: seq<Task>, t: Task)
    requires ByCreation(ts)
    ensures ByCreation(Insert(ts, t))
  {
    if ts == [] || ts[|ts| - 1].createdAt <= t.createdAt {
      forall i | 0 <= i < |ts| ensures ts[i].createdAt <= t.createdAt {
        assert ts[i].createdAt <= ts[|ts| - 1].createdAt;
      }
    } else {
      var init, last := ts[..|ts| - 1], ts[|ts| - 1];
      assert ByCreation(init);
      InsertKeepsOrder(init, t);
      assert CreatedBy(init, last.createdAt) by {
        forall i | 0 <= i < |init| ensures init[i].createdAt <= last.createdAt {
          assert init[i] == ts[i];
        }
      }
      InsertBounded(init, t, last.createdAt);
      var r0 := Insert(init, t);
      var r := r0 + [last];
      forall i, j | 0 <= i < j < |r| ensures r[i].createdAt <= r[j].createdAt {
        assert r[i] == r0[i];
        if j < |r0| {
          assert r[j] == r0[j];
        }
      }
    }
  }

  /** A task newer than every stored task goes last. */
  lemma InsertNewest(ts: seq<Task>, t: Task)
    requires forall i :: 0 <= i < |ts| ==> ts[i].createdAt <= t.createdAt
    ensures Insert(ts, t) == ts + [t]
  {
  }

  function TaskStrings(ts: seq<Task>): (r: seq<string>)
    ensures |r| == |ts| && forall i :: 0 <= i < |ts| ==> r[i] == TaskString(ts[i])
  {
    seq(|ts|, i requires 0 <= i < |ts| => TaskString(ts[i]))
  }

  /** `str(odg)` for tasks already in creation order. */
  function Render(ts: seq<Task>): (r: string)
    ensures ts == [] ==> r == EmptyMessage
    ensures |ts| == 1 ==> r == TaskString(ts[0])
  {
    if ts == [] then EmptyMessage else Join(TaskStrings(ts), "\n\n")
  }

  /** The empty message is shown exactly for an empty board: a task always renders with its
      clipboard first. */
  lemma {:induction false} RenderEmptyIff(ts: seq<Task>)
    ensures Render(ts) == EmptyMessage <==> ts == []
  {
    if ts != [] {
      var strs := TaskStrings(ts);
      JoinStartsWithFirst(strs, "\n\n");
      assert StartsWith(strs[0], Clipboard);
      assert Render(ts)[0] == '\U{1F4CB}' != EmptyMessage[0];
    }
  }

  lemma {:induction false} JoinStartsWithFirst(parts: seq<string>, sep: string)
    requires parts != []
    ensures StartsWith(Join(parts, sep), parts[0])
  {
  }

  /** A new task adds one paragraph at the end of the rendering. */
  lemma RenderAppend(ts: seq<Task>, t: Task)
    requires ts != []
    ensures Render(ts + [t]) == Render(ts) + "\n\n" + TaskString(t)
  {
    assert TaskStrings(ts + [t]) == TaskStrings(ts) + [TaskString(t)];
    JoinAppend(TaskStrings(ts), [TaskString(t)], "\n\n");
  }

  /** The row `order_by(...).limit(1, offset=idx)` selects among `count` rows, as SQLite runs
      it: a negative offset counts as zero. */
  function OffsetRow(count: nat, offset: int): (r: Option<nat>)
    ensures r.Some? ==> r.value < count
  {
    var start := if offset < 0 then 0 else offset;
    if start < count then Some(start) else None
  }

  /** The row at zero-based position `idx`, when there is one. */
  function TaskRow(count: nat, idx: int): (r: Option<nat>)
    ensures r.Some? <==> 0 <= idx < count
    ensures r.Some? ==> r.value == idx
  {
    if 0 <= idx < count then Some(idx) else None
  }

  /** The two agree on every index the user can mean; a negative index selects the first task
      as written and nothing once corrected. */
  lemma NegativeOffsetSelectsFirst(count: nat, idx: int)
    ensures idx >= 0 ==> OffsetRow(count, idx) == TaskRow(count, idx)
    ensures idx < 0 && count > 0 ==> OffsetRow(count, idx) == Some(0) && TaskRow(count, idx) == None
  {
  }

  /** An ODG board; its task set is kept in creation order. */
  class ODG {
    const chatId: int
    const threadId: Option<int>
    var tasks: seq<Task>

    ghost predicate Valid()
      reads this
    {
      ByCreation(tasks)
    }

    /** `ODG(chatId=..., threadId=...)`: a board without tasks. */
    constructor (chatId: int, threadId: Option<int>)
      ensures Valid() && this.chatId == chatId && this.threadId == threadId && tasks == []
    {
      this.chatId := chatId;
      this.threadId := threadId;
      tasks := [];
    }

    /** `str(odg)`. */
    function ToString(): (r: string)
      reads this
      requires Valid()
      ensures r == EmptyMessage <==> tasks == []
    {
      RenderEmptyIff(tasks);
      Render(tasks)
    }

    /** `reset()`: every task deleted one by one, then the set cleared. */
    method Reset()
      requires Valid()
      modifies this
      ensures Valid() && tasks == []
    {
      while tasks != []
        invariant Valid()
        decreases |tasks|
      {
        tasks := tasks[1..];
      }
    }

    /** `remove_task(idx)`: deletes what sits at zero-based position `idx` of the creation order
        and says whether there was one; the rest keep their order. */
    method RemoveTask(idx: int) returns (removed: bool)
      requires Valid()
      modifies this
      ensures Valid()
      ensures removed <==> 0 <= idx < |old(tasks)|
      ensures removed ==> tasks == old(tasks)[..idx] + old(tasks)[idx + 1..]
      ensures !removed ==> tasks == old(tasks)
    {
      match TaskRow(|tasks|, idx)
      case None =>
        removed := false;
      case Some(row) =>
        tasks := tasks[..row] + tasks[row + 1..];
        removed := true;
    }

    /** Creating a `Task` linked to this board: it joins the set at its place in time. */
    method AddTask(text: string, createdBy: string, now: int)
      requires Valid()
      modifies this
      ensures Valid()
      ensures multiset(tasks) == multiset(old(tasks)) + multiset{Task(text, createdBy, now)}
      ensures (forall i :: 0 <= i < |old(tasks)| ==> old(tasks)[i].createdAt <= now) ==>
        tasks == old(tasks) + [Task(text, createdBy, now)]
    {
      var t := Task(text, createdBy, now);
      if forall i :: 0 <= i < |tasks| ==> tasks[i].createdAt <= now {
        InsertNewest(tasks, t);
      }
      InsertKeepsOrder(tasks, t);
      InsertPermutes(tasks, t);
      tasks := Insert(tasks, t);
    }
  }
}

=== FILE: mentions.dfy ===
/** The mention handler: a message mentioning a known tag gets the tag's members as a reply;
    "@inlab" gets who is in the lab. */
module Mentions {
  import opened Wrappers
  import opened Text
  import opened Chat
  import NocoDB
  import Whitelist

  const NobodyInLab := "Nobody is in the lab right now."

  /** `[\w\.-]`, for ASCII text: letters, digits, underscore, dot and hyphen. */
  predicate IsTagChar(c: char)
  {
    'a' <= c <= 'z' || 'A' <= c <= 'Z' || '0' <= c <= '9' || c == '_' || c == '.' || c == '-'
  }

  /** The length of the run of tag characters at the front of `s`. */
  function RunLength(s: string): (n: nat)
    ensures n <= |s|
  {
    if s != [] && IsTagChar(s[0]) then 1 + RunLength(s[1..]) else 0
  }

  /** The run is made of tag characters and is as long as it can be. */
  lemma {:induction false} RunLengthSpec(s: string)
    ensures forall i :: 0 <= i < RunLength(s) ==> IsTagChar(s[i])
    ensures RunLength(s) < |s| ==> !IsTagChar(s[RunLength(s)])
  {
    if s != [] && IsTagChar(s[0]) {
      RunLengthSpec(s[1..]);
      forall i | 1 <= i < RunLength(s) ensures IsTagChar(s[i]) {
        assert s[i] == s[1..][i - 1];
      }
    }
  }

  /** Position `i` holds an `@` followed by a tag character. */
  predicate TagAt(s: string, i: int)
  {
    0 <= i < |s| - 1 && s[i] == '@' && IsTagChar(s[i + 1])
  }

  /** The mention starting at `i`: the `@` and the whole run of tag characters after it. */
  function TagFrom(s: string, i: int): string
    requires TagAt(s, i)
  {
    "@" + s[i + 1..i + 1 + RunLength(s[i + 1..])]
  }

  /** `re.findall(r'@[\w\.-]+', s)`: scanning left to right, an `@` followed by tag characters
      gives a match that takes the whole run; the scan resumes after the match. */
  function FindTags(s: string): (r: seq<string>)
    ensures '@' !in s ==> r == []
    decreases |s|
  {
    if |s| < 2 then []
    else if s[0] == '@' && IsTagChar(s[1]) then
      var n := RunLength(s[1..]);
      ["@" + s[1..1 + n]] + FindTags(s[1 + n..])
    else FindTags(s[1..])
  }

  /** Dropping a prefix moves every mention after it, unchanged. */
  lemma TagShift(s: string, k: nat, i: int, j: int)
    requires k <= |s| && 0 <= j && i == k + j
    ensures TagAt(s, i) <==> TagAt(s[k..], j)
    ensures TagAt(s, i) ==> TagFrom(s, i) == TagFrom(s[k..], j)
  {
    if TagAt(s, i) {
      assert s[k..][j + 1..] == s[i + 1..];
    }
  }

  /** Every `@` followed by a tag character starts a match: none can sit inside another match,
      since `@` is not a tag character. */
  lemma {:induction false} FindTagsComplete(s: string, i: int)
    requires TagAt(s, i)
    ensures TagFrom(s, i) in FindTags(s)
    decreases |s|
  {
    if s[0] == '@' && IsTagChar(s[1]) {
      var k := 1 + RunLength(s[1..]);
      assert FindTags(s) == [TagFrom(s, 0)] + FindTags(s[k..]);
      if i > 0 {
        NoTagInsideRun(s, i);
        TagShift(s, k, i, i - k);
        FindTagsComplete(s[k..], i - k);
        assert TagFrom(s, i) in FindTags(s[k..]);
      }
    } else {
      assert FindTags(s) == FindTags(s[1..]);
      TagShift(s, 1, i, i - 1);
      FindTagsComplete(s[1..], i - 1);
    }
  }

  /** No mention starts inside the run that follows an `@`. */
  lemma NoTagInsideRun(s: string, i: int)
    requires s != []
    ensures 1 <= i < 1 + RunLength(s[1..]) ==> !TagAt(s, i)
  {
    if 1 <= i < 1 + RunLength(s[1..]) {
      RunLengthSpec(s[1..]);
      assert s[i] == s[1..][i - 1];
    }
  }

  /** Every match is the mention at some `@` followed by a tag character. */
  lemma {:induction false} FindTagsSound(s: string, t: string)
    requires t in FindTags(s)
    ensures exists i :: TagAt(s, i) && t == TagFrom(s, i)
    decreases |s|
  {
    if s[0] == '@' && IsTagChar(s[1]) {
      var k := 1 + RunLength(s[1..]);
      assert FindTags(s) == [TagFrom(s, 0)] + FindTags(s[k..]);
      if t == TagFrom(s, 0) {
        assert TagAt(s, 0);
      } else {
        FindTagsSound(s[k..], t);
        var j :| TagAt(s[k..], j) && t == TagFrom(s[k..], j);
        TagShift(s, k, k + j, j);
      }
    } else {
      FindTagsSound(s[1..], t);
      var j :| TagAt(s[1..], j) && t == TagFrom(s[1..], j);
      TagShift(s, 1, 1 + j, j);
    }
  }

  /** A match holds its `@` and characters of the scanned text only, so scanning text without
      upper-case letters finds tags without them. */
  lemma {:induction false} FindTagsNoUpper(s: string, t: string)
    requires NoUpper(s) && t in FindTags(s)
    ensures NoUpper(t)
    decreases |s|
  {
    if s[0] == '@' && IsTagChar(s[1]) {
      var k := 1 + RunLength(s[1..]);
      if t == "@" + s[1..k] {
        NoUpperSlice(s, 1, k);
        NoUpperPrepend('@', s[1..k]);
      } else {
        NoUpperSlice(s, k, |s|);
        assert s[k..|s|] == s[k..];
        FindTagsNoUpper(s[k..], t);
      }
    } else {
      NoUpperSlice(s, 1, |s|);
      assert s[1..|s|] == s[1..];
      FindTagsNoUpper(s[1..], t);
    }
  }

  /** Tags are scanned from the lower-cased text, so no found tag holds an upper-case letter and
      each can be compared with the lower-cased tags of the cache. */
  lemma FoundTagsAreLower(text: string, t: string)
    requires t in FindTags(Lower(text))
    ensures NoUpper(t)
  {
    FindTagsNoUpper(Lower(text), t);
  }

  /** Where a found tag leads: the lab query, a tag of one of the cached kinds (the first kind
      listing it wins), or nowhere. */
  datatype Target = InLab | Group(kind: NocoDB.Kind) | Unknown

  /** The position of a kind in the handler's chain of tests: areas, workgroups, projects, roles. */
  function Rank(k: NocoDB.Kind): nat
  {
    match k
    case Area => 0
    case Workgroup => 1
    case Project => 2
    case Role => 3
  }

  function Classify(tag: string, tc: Whitelist.TagCache): (r: Target)
    ensures r.InLab? <==> |tag| >= 1 && tag[1..] == "inlab"
    ensures r.Group? ==> tag in Whitelist.TagsOf(tc, r.kind)
    ensures r.Group? ==> forall k :: Rank(k) < Rank(r.kind) ==> tag !in Whitelist.TagsOf(tc, k)
    ensures r.Unknown? ==> forall k :: tag !in Whitelist.TagsOf(tc, k) || (|tag| >= 1 && tag[1..] == "inlab")
  {
    if |tag| >= 1 && tag[1..] == "inlab" then InLab
    else if tag in Whitelist.TagsOf(tc, NocoDB.Area) then Group(NocoDB.Area)
    else if tag in Whitelist.TagsOf(tc, NocoDB.Workgroup) then Group(NocoDB.Workgroup)
    else if tag in Whitelist.TagsOf(tc, NocoDB.Project) then Group(NocoDB.Project)
    else if tag in Whitelist.TagsOf(tc, NocoDB.Role) then Group(NocoDB.Role)
    else Unknown
  }

  /** What the lab service answers: the emails of the people inside and their count. */
  datatype InLabData = InLabData(people: seq<string>, count: int)

  function LookupUsernames(people: seq<string>, lookup: string -> Option<string>): (r: seq<Option<string>>)
    ensures |r| == |people| && forall i :: 0 <= i < |r| ==> r[i] == lookup(people[i])
  {
    seq(|people|, i requires 0 <= i < |people| => lookup(people[i]))
  }

  function Values(names: seq<Option<string>>): (r: seq<string>)
    requires forall i :: 0 <= i < |names| ==> names[i].Some?
    ensures |r| == |names| && forall i :: 0 <= i < |r| ==> Some(r[i]) == names[i]
  {
    seq(|names|, i requires 0 <= i < |names| => names[i].value)
  }

  /** The "@inlab" reply. `lookup` is `username_from_email`; joining a missing username raises. */
  function InLabReply(data: InLabData, lookup: string -> Option<string>): (r: Reply)
    ensures data.count == 0 <==> r == Html(NobodyInLab)
    ensures r == Raised <==> data.count != 0 && exists i :: 0 <= i < |data.people| && lookup(data.people[i]).None?
  {
    var names := LookupUsernames(data.people, lookup);
    if data.count == 0 then Html(NobodyInLab)
    else if exists i :: 0 <= i < |names| && names[i].None? then Raised
    else
      var count := IntToString(data.count);
      assert count[0] != NobodyInLab[0] by {
        if data.count < 0 {
        } else {
          assert IsDigit(count[0]);
        }
      }
      Html("There are <b>" + count + "</b> people in the lab: " + Join(Values(names), ", "))
  }

  /** The reply one found tag produces, or `None` when the loop goes on to the next tag. */
  function TagReply(tag: string, tc: Whitelist.TagCache, source: Whitelist.MembershipSource,
                    data: InLabData, lookup: string -> Option<string>): (r: Option<Reply>)
    ensures r.Some? ==> r.value != Silent
    ensures Classify(tag, tc).InLab? ==> r == Some(InLabReply(data, lookup))
    ensures Classify(tag, tc).Unknown? ==> r.None?
    ensures Classify(tag, tc).Group? ==>
      (r.None? <==> source(LStripChar(tag, '@'), Classify(tag, tc).kind) == [])
  {
    match Classify(tag, tc)
    case InLab => Some(InLabReply(data, lookup))
    case Unknown => None
    case Group(kind) =>
      var members := source(LStripChar(tag, '@'), kind);
      if members == [] then None
      else Some(Html("<b>" + tag + "</b>:\n" + Join(members, " ")))
  }

  /** `mention_handler`: the found tags are tried in some order and the first that produces a
      reply answers; if none does, nothing is sent. */
  method HandleMentions(u: Update, tc: Whitelist.TagCache, source: Whitelist.MembershipSource,
                        data: InLabData, lookup: string -> Option<string>)
    returns (reply: Reply)
    ensures u.isEdit || u.isReaction || u.username == "" || u.text == "" ==> reply == Silent
    ensures !(u.isEdit || u.isReaction || u.username == "" || u.text == "") ==>
      var found := FindTags(Lower(u.text));
      && (reply == Silent <==> forall t :: t in found ==> TagReply(t, tc, source, data, lookup).None?)
      && (reply != Silent ==> exists t :: t in found && TagReply(t, tc, source, data, lookup) == Some(reply))
  {
    if u.isEdit || u.isReaction || u.username == "" || u.text == "" {
      return Silent;
    }
    var found := FindTags(Lower(u.text));
    var rest := set t | t in found;
    while rest != {}
      invariant forall t :: t in rest ==> t in found
      invariant forall t :: t in found && t !in rest ==> TagReply(t, tc, source, data, lookup).None?
      decreases |rest|
    {
      var t :| t in rest;
      var r := TagReply(t, tc, source, data, lookup);
      if r.Some? {
        return r.value;
      }
      rest := rest - {t};
    }
    return Silent;
  }
}

=== FILE: nocodb.dfy ===
/** The NocoDB client. Its HTTP exchanges are not modelled: each operation takes the `list`
    of the response it reads as an input, every record a map from field name to value. */
module NocoDB {
  import opened Wrappers
  import opened Text

  type Record = map<string, string>

  /** The four kinds of group a tag can name. */
  datatype Kind = Area | Workgroup | Project | Role

  /** The name `members` is called with for a kind. */
  function KindName(k: Kind): string
  {
    match k
    case Area => "area"
    case Workgroup => "workgroup"
    case Project => "project"
    case Role => "role"
  }

  /** The kind check of `members`: a name is accepted only if its mapping has an entry. */
  function ParseKind(name: string): (r: Option<Kind>)
    ensures r.Some? ==> KindName(r.value) == name
    ensures r.None? ==> forall k: Kind :: KindName(k) != name
  {
    if name == "area" then Some(Area)
    else if name == "workgroup" then Some(Workgroup)
    else if name == "project" then Some(Project)
    else if name == "role" then Some(Role)
    else None
  }

  /** Table, link field and view that `members` reads for each kind. */
  datatype Route = Route(table: string, link: string, view: string)

  function RouteOf(k: Kind): Route
  {
    match k
    case Area => Route("mbftgdmmi4t668c", "cjest7m9j409yia", "vw72nyx0bmaak96s")
    case Workgroup => Route("m5gpr28sp047j7w", "c4olgvricf9nalu", "vw72nyx0bmaak96s")
    case Project => Route("ma3scczigje9u17", "c96a46tetiedgvg", "vw72nyx0bmaak96s")
    case Role => Route("mpur65wgd6gqi98", "cbuvnbm0wxwkfyo", "vw72nyx0bmaak96s")
  }

  /** The table each `*_tags` wrapper lists. */
  function TagTable(k: Kind): string
  {
    match k
    case Area => "mbftgdmmi4t668c"
    case Workgroup => "m5gpr28sp047j7w"
    case Project => "ma3scczigje9u17"
    case Role => "mpur65wgd6gqi98"
  }

  /** The people table, where usernames and emails live. */
  const PeopleTable := "m3rsrrmnhhxxw0p"

  const UsernameField := "Telegram Username"

  const EmailField := "Team Email"

  datatype Client = Client(baseUrl: string)

  /** `NocoDB(base_url, api_key)`: the base URL loses every trailing slash. */
  function NewClient(baseUrl: string): (c: Client)
    ensures StartsWith(baseUrl, c.baseUrl)
    ensures c.baseUrl == [] || c.baseUrl[|c.baseUrl| - 1] != '/'
    ensures forall i :: |c.baseUrl| <= i < |baseUrl| ==> baseUrl[i] == '/'
  {
    Client(RStripChar(baseUrl, '/'))
  }

  /** One entry of `_tags_for_table`: `"@" + tag.lower().strip()`. */
  function TagEntry(tag: string): (r: string)
    ensures r != [] && r[0] == '@'
    ensures |r| == 1 || (!IsSpace(r[1]) && !IsSpace(r[|r| - 1]))
    ensures NoUpper(r)
    ensures TrimmedOf(r[1..], Lower(tag))
  {
    var lowered := Lower(tag);
    StripKeepsLower(lowered);
    StripTrims(lowered);
    assert ("@" + Strip(lowered))[1..] == Strip(lowered);
    NoUpperPrepend('@', Strip(lowered));
    "@" + Strip(lowered)
  }

  /** Normalising the name of a normalised tag gives the tag back. */
  lemma TagEntryIdempotent(tag: string)
    ensures TagEntry(TagEntry(tag)[1..]) == TagEntry(tag)
  {
    var lowered := Lower(tag);
    var name := Strip(lowered);
    assert TagEntry(tag)[1..] == name;
    StripKeepsLower(lowered);
    NormalName(name);
  }

  /** A lower-case name without surrounding whitespace is its own normal form. */
  lemma NormalName(name: string)
    requires NoUpper(name) && (name == [] || (!IsSpace(name[0]) && !IsSpace(name[|name| - 1])))
    ensures Strip(Lower(name)) == name
  {
    assert Lower(name) == name;
    if name != [] {
      StripKeepsTrimmed(name);
    }
  }

  /** `_tags_for_table`, given the `Tag` values of the table's records in response order. */
  function TagsForTable(tagValues: seq<string>): (r: seq<string>)
    ensures |r| == |tagValues|
    ensures forall i :: 0 <= i < |r| ==> r[i] == TagEntry(tagValues[i])
  {
    seq(|tagValues|, i requires 0 <= i < |tagValues| => TagEntry(tagValues[i]))
  }

  /** `item.get("Telegram Username")` is truthy. */
  predicate HasUsername(rec: Record)
  {
    UsernameField in rec && rec[UsernameField] != ""
  }

  /** The final comprehension of `members`: the non-empty usernames, in response order. */
  function Usernames(records: seq<Record>): (r: seq<string>)
    ensures |r| <= |records|
    ensures forall i :: 0 <= i < |r| ==> r[i] != ""
  {
    if records == [] then []
    else (if HasUsername(records[0]) then [records[0][UsernameField]] else []) + Usernames(records[1..])
  }

  /** Filtering keeps response order: it distributes over concatenation. */
  lemma {:induction false} UsernamesAppend(a: seq<Record>, b: seq<Record>)
    ensures Usernames(a + b) == Usernames(a) + Usernames(b)
  {
    if a == [] {
      assert a + b == b;
    } else {
      assert (a + b)[1..] == a[1..] + b;
      UsernamesAppend(a[1..], b);
    }
  }

  /** A username is returned exactly when some record carries it. */
  lemma {:induction false} UsernamesMembership(records: seq<Record>, u: string)
    ensures u in Usernames(records) <==>
      exists i :: 0 <= i < |records| && HasUsername(records[i]) && records[i][UsernameField] == u
  {
    if records != [] {
      UsernamesMembership(records[1..], u);
      if u in Usernames(records[1..]) {
        var i :| 0 <= i < |records[1..]| && HasUsername(records[1..][i]) && records[1..][i][UsernameField] == u;
        assert records[i + 1] == records[1..][i];
      }
      if exists i :: 0 <= i < |records| && HasUsername(records[i]) && records[i][UsernameField] == u {
        var i :| 0 <= i < |records| && HasUsername(records[i]) && records[i][UsernameField] == u;
        if i > 0 {
          assert records[1..][i - 1] == records[i];
        }
      }
    }
  }

  function IdStrings(ids: seq<nat>): (r: seq<string>)
    ensures |r| == |ids|
    ensures forall i :: 0 <= i < |r| ==> r[i] == NatToString(ids[i])
  {
    seq(|ids|, i requires 0 <= i < |ids| => NatToString(ids[i]))
  }

  /** The `where` of the member request: the linked Ids joined by commas. */
  function MemberFilter(ids: seq<nat>): (r: string)
    ensures StartsWith(r, "(Id,in,") && |r| >= 8 && r[|r| - 1] == ')'
  {
    "(Id,in," + Join(IdStrings(ids), ",") + ")"
  }

  /** The member filter names exactly the linked Ids, in response order. */
  lemma MemberFilterListsIds(ids: seq<nat>)
    requires ids != []
    ensures
      var f := MemberFilter(ids);
      var pieces := Split(f[7..|f| - 1], ',');
      && |pieces| == |ids|
      && forall i :: 0 <= i < |ids| ==> AllDigits(pieces[i]) && DigitsValue(pieces[i]) == ids[i]
  {
    var f := MemberFilter(ids);
    var strs := IdStrings(ids);
    assert f[7..|f| - 1] == Join(strs, [',']);
    forall i | 0 <= i < |strs| ensures ',' !in strs[i] {
      assert AllDigits(strs[i]);
    }
    SplitJoin(strs, ',');
    forall i | 0 <= i < |ids| ensures DigitsValue(strs[i]) == ids[i] {
      NatToStringRoundTrip(ids[i]);
    }
  }

  /** The `where` of the request for a tag's record. */
  function TagFilter(tag: string): string
  {
    "(Tag,like," + tag + ")"
  }

  datatype MembersError = UnsupportedKind(kind: string)

  /** The requests `members` issues and the usernames it returns. */
  datatype MembersCall = MembersCall(route: Route, tagFilter: string, memberFilter: string, usernames: seq<string>)

  /** `members(tag, kind)`. `linkedIds` are the Ids the link endpoint lists for the tag's
      record; `records` is the people table's answer to the member filter. */
  function Members(tag: string, kind: string, linkedIds: seq<nat>, records: seq<Record>): (r: Result<MembersCall, MembersError>)
    ensures r.Err? <==> forall k: Kind :: KindName(k) != kind
    ensures r.Err? ==> r.error == UnsupportedKind(kind)
    ensures r.Ok? ==> KindName(ParseKind(kind).value) == kind && r.value.route == RouteOf(ParseKind(kind).value)
    ensures r.Ok? ==> forall u :: u in r.value.usernames <==>
      exists i :: 0 <= i < |records| && HasUsername(records[i]) && records[i][UsernameField] == u
    ensures r.Ok? ==> r.value.route.table == TagTable(ParseKind(kind).value)
    ensures r.Ok? ==> r.value.usernames == Usernames(records)
    ensures r.Ok? ==> r.value.tagFilter == TagFilter(tag) && r.value.memberFilter == MemberFilter(linkedIds)
  {
    match ParseKind(kind)
    case None => Err(UnsupportedKind(kind))
    case Some(k) =>
      var usernames := Usernames(records);
      assert forall u :: u in usernames <==>
        exists i :: 0 <= i < |records| && HasUsername(records[i]) && records[i][UsernameField] == u
      by {
        forall u ensures u in usernames <==>
          exists i :: 0 <= i < |records| && HasUsername(records[i]) && records[i][UsernameField] == u
        {
          UsernamesMembership(records, u);
        }
      }
      Ok(MembersCall(RouteOf(k), TagFilter(tag), MemberFilter(linkedIds), usernames))
  }

  /** The answer of a lookup by username or by email: `None` when no record matches,
      otherwise the first record's field, or "" when that record lacks it. */
  function FirstField(items: seq<Record>, field: string): (r: Option<string>)
    ensures r.None? <==> items == []
    ensures r.Some? && field in items[0] ==> r.value == items[0][field]
    ensures r.Some? && field !in items[0] ==> r.value == ""
  {
    if items == [] then None
    else if field in items[0] then Some(items[0][field])
    else Some("")
  }

  /** `email_from_username`, given the records matching the username. */
  function EmailFromUsername(items: seq<Record>): (r: Option<string>)
    ensures r.None? <==> items == []
    ensures r.Some? ==> r.value == (if EmailField in items[0] then items[0][EmailField] else "")
  {
    FirstField(items, EmailField)
  }

  /** `username_from_email`, given the records matching the email. */
  function UsernameFromEmail(items: seq<Record>): (r: Option<string>)
    ensures r.None? <==> items == []
    ensures r.Some? ==> r.value == (if UsernameField in items[0] then items[0][UsernameField] else "")
  {
    FirstField(items, UsernameField)
  }
}

=== FILE: odg.dfy ===
/** The `/odg` command: reset, remove, add and show the chat's agenda. */
module OdgCommand {
  import opened Wrappers
  import opened Text
  import opened Chat
  import opened Database

  const ThumbsUp := "\U{1F44D}"
  const Writing := "\U{270D}"
  const BadTaskId := "Task ID must be a number."
  const TodoHeader := "\U{1F4DD} <b>Todo List</b>\n\n"

  function TaskNotFound(taskId: int): string
  {
    "Task #" + IntToString(taskId) + " not found in the todo list."
  }

  /** What the command asks for. `Remove` carries the parsed number, `Add` the new text,
      `None` where the source raises while extracting them. */
  datatype Command = Reset | Remove(taskId: Option<int>) | Add(text: Option<string>) | Show

  /** `s.split(' ', 2)[2]`: what follows the second space. */
  function ThirdField(s: string): (r: Option<string>)
    ensures r.None? <==> Count(s, ' ') < 2
  {
    SplitOnceCount(s, ' ');
    match SplitOnce(s, ' ')
    case None => None
    case Some((_, rest)) =>
      SplitOnceCount(rest, ' ');
      match SplitOnce(rest, ' ')
      case None => None
      case Some((_, third)) => Some(third)
  }

  /** Two space-free words, then the third field verbatim. */
  lemma ThirdFieldOf(first: string, second: string, third: string)
    requires ' ' !in first && ' ' !in second
    ensures ThirdField(first + " " + second + " " + third) == Some(third)
  {
    var rest := second + " " + third;
    assert first + " " + second + " " + third == first + [' '] + rest;
    SplitOnceAtFirst(first, ' ', rest);
    SplitOnceAtFirst(second, ' ', third);
  }

  /** The branch the handler takes: the raw text's prefix picks it, reset before remove before
      add; the number comes from the raw text, the new text from the cleaned one. */
  function Decode(raw: string): (c: Command)
    ensures c.Reset? <==> StartsWith(raw, "/odg reset")
    ensures c.Remove? <==> !StartsWith(raw, "/odg reset") && StartsWith(raw, "/odg remove")
    ensures c.Add? <==> !StartsWith(raw, "/odg reset") && !StartsWith(raw, "/odg remove") && StartsWith(raw, "/odg ")
    ensures c.Remove? && c.taskId.Some? ==> ThirdField(raw).Some?
    ensures c.Add? ==> (c.text.None? <==> ' ' !in Clean(raw))
  {
    if StartsWith(raw, "/odg reset") then Reset
    else if StartsWith(raw, "/odg remove") then
      match ThirdField(raw)
      case None => Remove(None)
      case Some(field) => Remove(ParseInt(field))
    else if StartsWith(raw, "/odg ") then Add(AfterFirstSpace(Clean(raw)))
    else Show
  }

  /** `/odg remove <field>` parses everything after the second space as the number. */
  lemma DecodeRemoveField(field: string)
    ensures Decode("/odg remove " + field) == Remove(ParseInt(field))
  {
    var raw := "/odg remove " + field;
    assert raw == "/odg" + " " + "remove" + " " + field;
    assert raw[..11] == "/odg remove";
    assert raw[7] != "/odg reset"[7];
    ThirdFieldOf("/odg", "remove", field);
  }

  /** `/odg remove <n>` asks to remove task `n`, whatever integer `n` is. */
  lemma DecodeRemove(n: int)
    ensures Decode("/odg remove " + IntToString(n)) == Remove(Some(n))
  {
    DecodeRemoveField(IntToString(n));
    IntToStringRoundTrip(n);
  }

  /** `/odg <text>` adds the text as written, for a trimmed text that does not mention the bot
      and does not start like another subcommand. */
  lemma DecodeAdd(text: string)
    requires text != [] && !IsSpace(text[0]) && !IsSpace(text[|text| - 1])
    requires !Contains("/odg " + text, BotMention)
    requires !StartsWith(text, "reset") && !StartsWith(text, "remove")
    ensures Decode("/odg " + text) == Add(Some(text))
  {
    var raw := "/odg " + text;
    assert raw == "/odg" + " " + text;
    assert raw[..5] == "/odg ";
    StartsWithAfter("/odg ", text, "reset");
    StartsWithAfter("/odg ", text, "remove");
    assert "/odg " + "reset" == "/odg reset" && "/odg " + "remove" == "/odg remove";
    CommandArgument("/odg", text);
  }

  /** What the board holds before the command: an ODG created by the command has none. */
  function TasksOf(board: ODG?): seq<Task>
    reads board
  {
    if board == null then [] else board.tasks
  }

  /** The `/odg` handler. `existing` is `ODG.get(chatId=..., threadId=...)`; the names are the
      sender's first and last name, "" where absent; `now` is the clock at the call. */
  method HandleOdg(u: Update, firstName: string, lastName: string, chatId: int, threadId: Option<int>,
                   existing: ODG?, now: int)
    returns (reply: Reply, board: ODG?)
    requires existing != null ==> existing.Valid() && existing.chatId == chatId && existing.threadId == threadId
    modifies existing
    ensures CommandGuard(u).Some? ==> reply == CommandGuard(u).value && board == existing && TasksOf(existing) == old(TasksOf(existing))
    ensures CommandGuard(u).None? && Decode(u.text) == Add(None) ==>
      reply == Raised && board == existing && TasksOf(existing) == old(TasksOf(existing))
    ensures CommandGuard(u).None? && Decode(u.text) != Add(None) ==>
      && board != null && board.Valid() && board.chatId == chatId && board.threadId == threadId
      && (existing != null ==> board == existing)
      && (existing == null ==> fresh(board))
    ensures CommandGuard(u).None? ==>
      var before := old(TasksOf(existing));
      match Decode(u.text)
      case Reset => reply == Reaction(ThumbsUp) && board.tasks == []
      case Remove(None) => reply == PlainText(BadTaskId) && board.tasks == before
      case Remove(Some(n)) =>
        if 1 <= n <= |before| then reply == Reaction(ThumbsUp) && board.tasks == before[..n - 1] + before[n..]
        else reply == PlainText(TaskNotFound(n)) && board.tasks == before
      case Add(None) => true
      case Add(Some(text)) =>
        reply == Reaction(Writing)
        && multiset(board.tasks) == multiset(before) + multiset{Task(text, firstName + " " + lastName, now)}
      case Show => reply == Html(TodoHeader + Render(before)) && board.tasks == before
  {
    match CommandGuard(u)
    case Some(r) =>
      return r, existing;
    case None =>
    var command := Decode(u.text);
    if command == Add(None) {
      // `split(' ', 1)[1]` raises inside the session, which rolls back the new board too
      return Raised, existing;
    }
    if existing == null {
      board := new ODG(chatId, threadId);
    } else {
      board := existing;
    }
    assert board.tasks == old(TasksOf(existing));
    reply := RunCommand(board, command, firstName + " " + lastName, now);
  }

  /** The branch of the handler for each command, on the chat's board. */
  method RunCommand(board: ODG, command: Command, author: string, now: int) returns (reply: Reply)
    requires board.Valid() && command != Add(None)
    modifies board
    ensures board.Valid()
    ensures
      var before := old(board.tasks);
      match command
      case Reset => reply == Reaction(ThumbsUp) && board.tasks == []
      case Remove(None) => reply == PlainText(BadTaskId) && board.tasks == before
      case Remove(Some(n)) =>
        if 1 <= n <= |before| then reply == Reaction(ThumbsUp) && board.tasks == before[..n - 1] + before[n..]
        else reply == PlainText(TaskNotFound(n)) && board.tasks == before
      case Add(None) => false
      case Add(Some(text)) =>
        reply == Reaction(Writing)
        && multiset(board.tasks) == multiset(before) + multiset{Task(text, author, now)}
      case Show => reply == Html(TodoHeader + Render(before)) && board.tasks == before
  {
    match command
    case Reset =>
      board.Reset();
      reply := Reaction(ThumbsUp);
    case Remove(None) =>
      reply := PlainText(BadTaskId);
    case Remove(Some(n)) =>
      var removed := board.RemoveTask(n - 1);
      reply := if removed then Reaction(ThumbsUp) else PlainText(TaskNotFound(n));
    case Add(Some(text)) =>
      board.AddTask(text, author, now);
      reply := Reaction(Writing);
    case Show =>
      reply := Html(TodoHeader + board.ToString());
  }
}

=== FILE: qr.dfy ===
/** The `/qr` command: a short link and its QR code, for members in the allowed groups. */
module QrCommand {
  import opened Wrappers
  import opened Text
  import opened Chat
  import Whitelist

  const NotAllowedHere := "QR code generation is only allowed in E-Agle groups."
  const Usage := "Please provide a URL to generate a QR code. Usage: /qr <URL> [custom-code]"
  const ShortenFailed := "An error occurred while generating the QR code. Please try again later."
  const Https := "https://"
  const Http := "http://"

  function ShortUrlCaption(shortUrl: string): string
  {
    "Here is your short URL: " + shortUrl
  }

  /** `text.split(' ')[1] if text.count(' ') >= 1 else None`. */
  function UrlArgument(text: string): (r: Option<string>)
    ensures r.Some? <==> Count(text, ' ') >= 1
    ensures r.Some? ==> ' ' !in r.value
  {
    SplitLength(text, ' ');
    if Count(text, ' ') >= 1 then Some(Split(text, ' ')[1]) else None
  }

  /** `text.split(' ')[2] if text.count(' ') >= 2 else None`. */
  function CodeArgument(text: string): (r: Option<string>)
    ensures r.Some? <==> Count(text, ' ') >= 2
    ensures r.Some? ==> ' ' !in r.value
  {
    SplitLength(text, ' ');
    if Count(text, ' ') >= 2 then Some(Split(text, ' ')[2]) else None
  }

  /** `/qr <url> <code>` with single spaces hands both arguments back. */
  lemma QrArguments(url: string, code: string)
    requires ' ' !in url && ' ' !in code
    ensures UrlArgument("/qr " + url + " " + code) == Some(url)
    ensures CodeArgument("/qr " + url + " " + code) == Some(code)
  {
    var parts := ["/qr", url, code];
    assert Join(parts, [' ']) == "/qr " + url + " " + code by {
      assert Join(parts[2..], [' ']) == code;
      assert Join(parts[1..], [' ']) == url + [' '] + code;
    }
    forall i | 0 <= i < |parts| ensures ' ' !in parts[i] {
    }
    SplitJoin(parts, ' ');
    SplitLength("/qr " + url + " " + code, ' ');
  }

  /** The normalisation as written: a URL that starts with `http://` has EVERY `http://` in it
      rewritten, not only its scheme. */
  function NormalizeUrlAsWritten(url: string): (r: string)
    ensures StartsWith(r, Https)
    ensures StartsWith(url, Https) ==> r == url
    ensures !StartsWith(url, Https) && StartsWith(url, Http) ==> r == Https + ReplaceAll(url[|Http|..], Http, Https)
    ensures !StartsWith(url, Https) && !StartsWith(url, Http) ==> r == Https + url
  {
    if StartsWith(url, Https) then url
    else if StartsWith(url, Http) then
      assert url == Http + url[|Http|..];
      ReplaceAllAtPattern(Http, url[|Http|..], Https);
      ReplaceAll(url, Http, Https)
    else Https + url
  }

  /** Normalising twice as written is normalising once. */
  lemma NormalizeUrlAsWrittenIdempotent(url: string)
    ensures NormalizeUrlAsWritten(NormalizeUrlAsWritten(url)) == NormalizeUrlAsWritten(url)
  {
  }

  /** Without a second link, the normalisation as written and the corrected one agree. */
  lemma NormalizationsAgree(url: string)
    requires |url| >= |Http| ==> 'h' !in url[|Http|..]
    ensures NormalizeUrlAsWritten(url) == NormalizeUrl(url)
  {
    if !StartsWith(url, Https) && StartsWith(url, Http) {
      ReplaceAllWithoutFirstChar(url[|Http|..], Http, Https);
    }
  }

  /** The URL the command means to shorten: secure scheme, same target. Only the scheme of a
      plain-HTTP URL is upgraded. */
  function NormalizeUrl(url: string): (r: string)
    ensures StartsWith(r, Https)
    ensures StartsWith(url, Https) ==> r == url
    ensures !StartsWith(url, Https) && StartsWith(url, Http) ==> r == Https + url[|Http|..]
    ensures !StartsWith(url, Https) && !StartsWith(url, Http) ==> r == Https + url
  {
    if StartsWith(url, Https) then url
    else if StartsWith(url, Http) then Https + url[|Http|..]
    else Https + url
  }

  /** Normalising twice is normalising once. */
  lemma NormalizeUrlIdempotent(url: string)
    ensures NormalizeUrl(NormalizeUrl(url)) == NormalizeUrl(url)
  {
  }

  /** A link carried in a plain-HTTP URL is rewritten by the code as written and kept by the
      corrected normalisation: `http://a/?u=http://b` becomes `https://a/?u=https://b`. */
  lemma NestedLinkRewritten(a: string, b: string)
    requires 'h' !in a && 'h' !in b
    ensures NormalizeUrlAsWritten(Http + a + Http + b) == Https + a + Https + b
    ensures NormalizeUrl(Http + a + Http + b) == Https + a + Http + b
  {
    assert Http + a + Http + b == Http + (a + Http + b);
    HttpIsNotHttps(a + Http + b);
    ReplaceBoth(Http, a, b, Https);
  }

  /** Two occurrences of a pattern, each followed by text where it cannot start, are both
      replaced. */
  lemma ReplaceBoth(pattern: string, a: string, b: string, replacement: string)
    requires pattern != [] && pattern[0] !in a && pattern[0] !in b
    ensures ReplaceAll(pattern + a + pattern + b, pattern, replacement) == replacement + a + replacement + b
  {
    var second := pattern + b;
    ReplaceOne(pattern, b, replacement);
    ReplaceAllSkips(a, second, pattern, replacement);
    ReplaceAllAtPattern(pattern, a + second, replacement);
    var whole := pattern + (a + second);
    assert pattern + a + pattern + b == whole;
    assert ReplaceAll(whole, pattern, replacement) == replacement + (a + (replacement + b));
    assert replacement + (a + (replacement + b)) == replacement + a + replacement + b;
  }

  /** One occurrence of a pattern, followed by text where it cannot start, is replaced. */
  lemma ReplaceOne(pattern: string, b: string, replacement: string)
    requires pattern != [] && pattern[0] !in b
    ensures ReplaceAll(pattern + b, pattern, replacement) == replacement + b
  {
    ReplaceAllAtPattern(pattern, b, replacement);
    ReplaceAllWithoutFirstChar(b, pattern, replacement);
  }

  /** A plain-HTTP URL does not start with the secure scheme. */
  lemma HttpIsNotHttps(rest: string)
    ensures StartsWith(Http + rest, Http) && !StartsWith(Http + rest, Https)
    ensures (Http + rest)[|Http|..] == rest
  {
    var s := Http + rest;
    assert s[..|Http|] == Http;
    assert s[4] == ':' != Https[4];
  }

  /** What the handler answers once the sender is through the whitelist gate. `chatId` is the
      chat's id, `groups` the ids of the chats allowed to make QR codes, and `shorten` the link
      service: the short URL for a URL and an optional custom code, or `None` when it fails. */
  function QrReply(chatId: int, groups: seq<string>, text: string, shorten: (string, Option<string>) -> Option<string>): (r: Reply)
    ensures IntToString(chatId) !in groups ==> r == PlainText(NotAllowedHere)
    ensures r.Photo? ==>
      && IntToString(chatId) in groups
      && UrlArgument(Clean(text)).Some? && UrlArgument(Clean(text)).value != ""
      && var url := NormalizeUrlAsWritten(UrlArgument(Clean(text)).value);
         StartsWith(url, Https) && shorten(url, CodeArgument(Clean(text))) == Some(r.image)
         && r.caption == ShortUrlCaption(r.image)
    ensures IntToString(chatId) in groups ==>
      (r == PlainText(Usage) <==> UrlArgument(Clean(text)).None? || UrlArgument(Clean(text)).value == "")
    ensures IntToString(chatId) in groups && UrlArgument(Clean(text)).Some? && UrlArgument(Clean(text)).value != "" ==>
      var s := shorten(NormalizeUrlAsWritten(UrlArgument(Clean(text)).value), CodeArgument(Clean(text)));
      && (s.Some? ==> r == Photo(s.value, ShortUrlCaption(s.value)))
      && (s.None? ==> r == PlainText(ShortenFailed))
    ensures r == PlainText(ShortenFailed) ==>
      && IntToString(chatId) in groups && UrlArgument(Clean(text)).Some? && UrlArgument(Clean(text)).value != ""
      && shorten(NormalizeUrlAsWritten(UrlArgument(Clean(text)).value), CodeArgument(Clean(text))).None?
  {
    if IntToString(chatId) !in groups then PlainText(NotAllowedHere)
    else
      var cleaned := Clean(text);
      match UrlArgument(cleaned)
      case None => PlainText(Usage)
      case Some(arg) =>
        if arg == "" then PlainText(Usage)
        else
          var url := NormalizeUrlAsWritten(arg);
          match shorten(url, CodeArgument(cleaned))
          case None => PlainText(ShortenFailed)
          case Some(shortUrl) => Photo(shortUrl, ShortUrlCaption(shortUrl))
  }

  /** The `/qr` handler. `enabled` is the whitelist feature switch and `generalTags` the tags
      allowed to use general commands. */
  method HandleQr(u: Update, enabled: bool, wl: Whitelist.Whitelist, generalTags: seq<string>,
                  source: Whitelist.MembershipSource, chatId: int, groups: seq<string>,
                  shorten: (string, Option<string>) -> Option<string>)
    returns (reply: Reply, allowed: bool)
    modifies wl
    ensures CommandGuard(u).Some? ==> reply == CommandGuard(u).value && wl.whitelist == old(wl.whitelist)
    ensures CommandGuard(u).None? && !allowed ==> reply == Silent
    ensures CommandGuard(u).None? && !enabled ==> allowed && wl.whitelist == old(wl.whitelist)
    ensures CommandGuard(u).None? && enabled && !allowed ==>
      !Whitelist.Listed(wl.whitelist, "@" + u.username, generalTags)
    ensures CommandGuard(u).None? && enabled && Whitelist.FirstPassGrants(old(wl.whitelist), "@" + u.username, generalTags) ==>
      allowed && wl.whitelist == old(wl.whitelist)
    ensures CommandGuard(u).None? && enabled && !Whitelist.FirstPassGrants(old(wl.whitelist), "@" + u.username, generalTags) ==>
      && Whitelist.IsRefresh(old(wl.whitelist), wl.whitelist, wl.tagCache, source)
      && (allowed <==> Whitelist.Listed(wl.whitelist, "@" + u.username, generalTags))
    ensures CommandGuard(u).None? && allowed ==> reply == QrReply(chatId, groups, u.text, shorten)
  {
    match CommandGuard(u)
    case Some(r) =>
      return r, false;
    case None =>
    allowed := Whitelist.Admits(enabled, wl, u.username, generalTags, source);
    if !allowed {
      return Silent, false;
    }
    reply := QrReply(chatId, groups, u.text, shorten);
  }
}

=== FILE: question.dfy ===
/** The `/question` command: a quiz question sent as a poll, by id or drawn at random. */
module QuestionCommand {
  import opened Wrappers
  import opened Text
  import opened Chat
  import opened Quiz
  import opened QuestionId

  const ImageHost := "https://img.fs-quiz.eu/"
  const BadIdFormat := "Please provide a valid question ID in the format <question_id>-<quiz_id>."

  function NoValidQuestion(question: string, quiz: string): string
  {
    "No valid question found for question ID " + question + " in quiz ID " + quiz + "."
  }

  /** What is sent before the poll: the text alone, one photo captioned with it, or an album
      followed by the text. */
  datatype Media = TextOnly(text: string) | SinglePhoto(url: string, caption: string) | Album(urls: seq<string>, text: string)

  /** A quiz poll; the poll record stored for it keeps the same correct option. */
  datatype Poll = Poll(title: string, options: seq<string>, correctOption: nat)

  datatype Outcome =
    | Replied(reply: Reply)        // a single reply, or none
    | Asked(media: Media, poll: Poll)
    | StillDrawing                 // every random draw so far was invalid; the loop draws again

  /** `[a.answer_text for a in answers]`. */
  function Options(answers: seq<Answer>): (r: seq<string>)
    ensures |r| == |answers| && forall i :: 0 <= i < |r| ==> r[i] == answers[i].text
  {
    seq(|answers|, i requires 0 <= i < |answers| => answers[i].text)
  }

  /** `[i for i, a in enumerate(answers) if a.is_correct]`: positions of correct answers. */
  function CorrectIndices(answers: seq<Answer>): (r: seq<nat>)
    ensures forall i :: 0 <= i < |r| ==> r[i] < |answers| && answers[r[i]].isCorrect
  {
    if answers == [] then []
    else
      var init, last := answers[..|answers| - 1], answers[|answers| - 1];
      assert forall k :: 0 <= k < |init| ==> answers[k] == init[k];
      CorrectIndices(init) + (if last.isCorrect then [|answers| - 1] else [])
  }

  predicate Increasing(r: seq<nat>)
  {
    forall i, j :: 0 <= i < j < |r| ==> r[i] < r[j]
  }

  /** The positions come in increasing order, each at most once. */
  lemma {:induction false} CorrectIndicesIncreasing(answers: seq<Answer>)
    ensures Increasing(CorrectIndices(answers))
  {
    if answers != [] {
      var init, last := answers[..|answers| - 1], answers[|answers| - 1];
      CorrectIndicesIncreasing(init);
      var r0, r := CorrectIndices(init), CorrectIndices(answers);
      assert r == r0 + (if last.isCorrect then [|answers| - 1] else []);
      forall i, j | 0 <= i < j < |r| ensures r[i] < r[j] {
        assert r[i] == r0[i] && r0[i] < |init|;
        if j < |r0| {
          assert r[j] == r0[j];
        } else {
          assert r[j] == |answers| - 1;
        }
      }
    }
  }

  /** Every correct answer's position is listed, and there are as many positions as correct
      answers. */
  lemma {:induction false} CorrectIndicesComplete(answers: seq<Answer>)
    ensures forall k :: 0 <= k < |answers| && answers[k].isCorrect ==> k in CorrectIndices(answers)
    ensures |CorrectIndices(answers)| == CorrectCount(answers)
  {
    if answers != [] {
      var init, last := answers[..|answers| - 1], answers[|answers| - 1];
      assert answers == init + [last];
      CorrectCountAppend(init, [last]);
      CorrectIndicesComplete(init);
      forall k | 0 <= k < |init| && answers[k].isCorrect ensures k in CorrectIndices(answers) {
        assert init[k] == answers[k];
      }
    }
  }

  function QuestionMedia(q: Question): (r: Media)
    ensures r.TextOnly? <==> q.images == []
    ensures r.SinglePhoto? <==> |q.images| == 1
    ensures r.SinglePhoto? ==> r.url == ImageHost + q.images[0] && r.caption == q.text
    ensures r.Album? ==> |r.urls| == |q.images| && r.text == q.text
    ensures r.Album? ==> forall i :: 0 <= i < |r.urls| ==> r.urls[i] == ImageHost + q.images[i]
    ensures r.TextOnly? ==> r.text == q.text
  {
    if |q.images| == 1 then SinglePhoto(ImageHost + q.images[0], q.text)
    else if |q.images| > 1 then Album(seq(|q.images|, i requires 0 <= i < |q.images| => ImageHost + q.images[i]), q.text)
    else TextOnly(q.text)
  }

  /** The end of the handler, once a question is chosen: without options or a correct one it
      says so, otherwise it sends the media and a poll whose answer is the first correct option. */
  function AskQuestion(q: Question): (r: Outcome)
    ensures r.Asked? <==> q.answers != [] && CorrectCount(q.answers) > 0
    ensures r.Asked? ==>
      && r.poll.options == Options(q.answers)
      && r.poll.correctOption < |q.answers| && q.answers[r.poll.correctOption].isCorrect
      && forall i :: 0 <= i < r.poll.correctOption ==> !q.answers[i].isCorrect
  {
    var options := Options(q.answers);
    var correct := CorrectIndices(q.answers);
    CorrectIndicesIncreasing(q.answers);
    CorrectIndicesComplete(q.answers);
    if options == [] || correct == [] then
      Replied(PlainText(NoValidQuestion(NatToString(q.id), NatToString(q.quizId))))
    else
      var title := "Question " + NatToString(q.id) + "-" + NatToString(q.quizId) + " " + q.kind;
      assert forall i :: 0 <= i < correct[0] && q.answers[i].isCorrect ==> i in correct;
      Asked(QuestionMedia(q), Poll(title, options, correct[0]))
  }

  /** A valid question is always asked, its poll has two to twelve options, and the option marked
      correct is its one correct answer. */
  lemma ValidQuestionIsAsked(q: Question)
    requires IsValid(q)
    ensures var r := AskQuestion(q);
      && r.Asked?
      && 2 <= |r.poll.options| <= 12
      && forall i :: 0 <= i < |q.answers| ==> (q.answers[i].isCorrect <==> i == r.poll.correctOption)
  {
    OneCorrect(q.answers);
  }

  /** The random draw: `Questions.select().random(1)[0]` until a valid one comes up. `draws` are
      the questions drawn, in order. */
  method FirstValidDraw(draws: seq<Question>) returns (k: Option<nat>)
    ensures k.Some? ==> k.value < |draws| && IsValid(draws[k.value])
    ensures k.Some? ==> forall j :: 0 <= j < k.value ==> !IsValid(draws[j])
    ensures k.None? <==> forall j :: 0 <= j < |draws| ==> !IsValid(draws[j])
  {
    var i := 0;
    while i < |draws| && !IsValid(draws[i])
      invariant 0 <= i <= |draws|
      invariant forall j :: 0 <= j < i ==> !IsValid(draws[j])
    {
      i := i + 1;
    }
    k := if i < |draws| then Some(i) else None;
  }

  /** The `/question` handler. `lookup` is `Questions.get(id=..., quiz=...)`; `storeEmpty` says
      whether the store holds no question at all; `draws` are the random picks. */
  method HandleQuestion(u: Update, lookup: (nat, nat) -> Option<Question>, storeEmpty: bool, draws: seq<Question>)
    returns (out: Outcome)
    ensures CommandGuard(u).Some? ==> out == Replied(CommandGuard(u).value)
    ensures CommandGuard(u).None? ==>
      var id := AfterFirstSpace(Clean(u.text));
      if id.None? || id.value == "" then
        && (storeEmpty ==> out == Replied(Raised))
        && (!storeEmpty ==> (out == StillDrawing <==> forall j :: 0 <= j < |draws| ==> !IsValid(draws[j])))
        && (!storeEmpty && out != StillDrawing ==> FirstValidAsked(draws, out))
      else out == ById(id.value, lookup)
  {
    match CommandGuard(u)
    case Some(r) =>
      return Replied(r);
    case None =>
    var id := AfterFirstSpace(Clean(u.text));
    if id.None? || id.value == "" {
      out := AskRandom(storeEmpty, draws);
    } else {
      out := ById(id.value, lookup);
    }
  }

  /** `out` asks the first valid question among the draws. */
  predicate FirstValidAsked(draws: seq<Question>, out: Outcome)
  {
    exists k :: 0 <= k < |draws| && IsValid(draws[k]) && (forall j :: 0 <= j < k ==> !IsValid(draws[j]))
      && out == AskQuestion(draws[k])
  }

  /** A random question: `random(1)[0]` raises on an empty store; otherwise the first valid draw
      is asked. */
  method AskRandom(storeEmpty: bool, draws: seq<Question>) returns (out: Outcome)
    ensures storeEmpty ==> out == Replied(Raised)
    ensures !storeEmpty ==> (out == StillDrawing <==> forall j :: 0 <= j < |draws| ==> !IsValid(draws[j]))
    ensures !storeEmpty && out != StillDrawing ==> FirstValidAsked(draws, out)
  {
    if storeEmpty {
      return Replied(Raised);
    }
    var k := FirstValidDraw(draws);
    if k.None? {
      return StillDrawing;
    }
    ValidQuestionIsAsked(draws[k.value]);
    out := AskQuestion(draws[k.value]);
  }

  /** A question named by id: asked when the id parses and names a valid question. */
  function ById(id: string, lookup: (nat, nat) -> Option<Question>): (out: Outcome)
    ensures ParseQuestionId(id).None? ==> out == Replied(PlainText(BadIdFormat))
    ensures out.Asked? ==>
      && ParseQuestionId(id).Some?
      && var (question, quiz) := ParseQuestionId(id).value;
         var q := lookup(DigitsValue(question), DigitsValue(quiz));
         q.Some? && IsValid(q.value) && out == AskQuestion(q.value)
    ensures ParseQuestionId(id).Some? ==>
      var (question, quiz) := ParseQuestionId(id).value;
      var q := lookup(DigitsValue(question), DigitsValue(quiz));
      q.Some? && IsValid(q.value) ==> out.Asked?
    ensures ParseQuestionId(id).Some? && !out.Asked? ==>
      var (question, quiz) := ParseQuestionId(id).value;
      out == Replied(PlainText(NoValidQuestion(question, quiz)))
  {
    match ParseQuestionId(id)
    case None => Replied(PlainText(BadIdFormat))
    case Some((question, quiz)) =>
      var found := lookup(DigitsValue(question), DigitsValue(quiz));
      if found.None? || !IsValid(found.value) then Replied(PlainText(NoValidQuestion(question, quiz)))
      else
        ValidQuestionIsAsked(found.value);
        AskQuestion(found.value)
  }
}

=== FILE: question_id.dfy ===
/** The `<question_id>-<quiz_id>` argument of `/question` and `/answer`. */
module QuestionId {
  import opened Wrappers
  import opened Text

  /** `re.fullmatch(r"\d+-\d+", id)`: digits, one hyphen, digits. */
  ghost predicate MatchesIdPattern(id: string)
  {
    exists k :: 0 < k < |id| - 1 && id[k] == '-' && AllDigits(id[..k]) && AllDigits(id[k + 1..])
  }

  /** The check and `id.split('-', 1)` together: the question and quiz parts as written. */
  function ParseQuestionId(id: string): (r: Option<(string, string)>)
    ensures r.Some? ==>
      && r.value.0 != [] && AllDigits(r.value.0)
      && r.value.1 != [] && AllDigits(r.value.1)
      && id == r.value.0 + "-" + r.value.1
  {
    match SplitOnce(id, '-')
    case None => None
    case Some((question, quiz)) =>
      if question != [] && AllDigits(question) && quiz != [] && AllDigits(quiz) then Some((question, quiz))
      else None
  }

  /** The parse succeeds exactly on the strings the pattern matches. */
  lemma ParseMatchesPattern(id: string)
    ensures ParseQuestionId(id).Some? <==> MatchesIdPattern(id)
  {
    if ParseQuestionId(id).Some? {
      ParsedMatches(id);
    }
    if MatchesIdPattern(id) {
      var k :| 0 < k < |id| - 1 && id[k] == '-' && AllDigits(id[..k]) && AllDigits(id[k + 1..]);
      MatchedParses(id, k);
    }
  }

  lemma ParsedMatches(id: string)
    requires ParseQuestionId(id).Some?
    ensures MatchesIdPattern(id)
  {
    var (a, b) := ParseQuestionId(id).value;
    var k := |a|;
    assert id[..k] == a && id[k + 1..] == b;
    assert id[k] == '-';
  }

  lemma MatchedParses(id: string, k: nat)
    requires 0 < k < |id| - 1 && id[k] == '-' && AllDigits(id[..k]) && AllDigits(id[k + 1..])
    ensures ParseQuestionId(id).Some?
  {
    var a, b := id[..k], id[k + 1..];
    assert '-' !in a by {
      forall i | 0 <= i < |a| ensures a[i] != '-' {
        assert IsDigit(a[i]);
      }
    }
    assert id == a + ['-'] + b;
    SplitOnceAtFirst(a, '-', b);
  }

  function FormatQuestionId(question: nat, quiz: nat): string
  {
    NatToString(question) + "-" + NatToString(quiz)
  }

  /** The id of a question, written out, reads back as the same two numbers. */
  lemma FormatParseRoundTrip(question: nat, quiz: nat)
    ensures ParseQuestionId(FormatQuestionId(question, quiz)) == Some((NatToString(question), NatToString(quiz)))
    ensures DigitsValue(NatToString(question)) == question && DigitsValue(NatToString(quiz)) == quiz
  {
    var a, b := NatToString(question), NatToString(quiz);
    assert '-' !in a by {
      forall i | 0 <= i < |a| ensures a[i] != '-' {
        assert IsDigit(a[i]);
      }
    }
    assert FormatQuestionId(question, quiz) == a + ['-'] + b;
    SplitOnceAtFirst(a, '-', b);
    NatToStringRoundTrip(question);
    NatToStringRoundTrip(quiz);
  }
}

=== FILE: quiz.dfy ===
/** The quiz store: questions with their answers and images, and when a question can be asked. */
module Quiz {
  import opened Wrappers
  import opened Text

  datatype Answer = Answer(text: string, isCorrect: bool)

  /** A question of the quiz store; `kind` is its `type` column, `images` the image paths.
      `answers` and `images` are in the order the store yields them. */
  datatype Question = Question(id: nat, quizId: nat, text: string, kind: string,
                               answers: seq<Answer>, images: seq<string>)

  /** `sum(1 for a in answers if a.is_correct)`. */
  function CorrectCount(answers: seq<Answer>): (r: nat)
    ensures r <= |answers|
    ensures r == 0 <==> forall i :: 0 <= i < |answers| ==> !answers[i].isCorrect
  {
    if answers == [] then 0
    else (if answers[0].isCorrect then 1 else 0) + CorrectCount(answers[1..])
  }

  lemma {:induction false} CorrectCountAppend(a: seq<Answer>, b: seq<Answer>)
    ensures CorrectCount(a + b) == CorrectCount(a) + CorrectCount(b)
  {
    if a == [] {
      assert a + b == b;
    } else {
      assert (a + b)[1..] == a[1..] + b;
      CorrectCountAppend(a[1..], b);
    }
  }

  /** `isValid()`: two to twelve answers, exactly one of them correct, none over 100 characters. */
  predicate IsValid(q: Question)
    ensures IsValid(q) ==> exists k :: 0 <= k < |q.answers| && q.answers[k].isCorrect &&
                                       (forall i :: 0 <= i < |q.answers| && i != k ==> !q.answers[i].isCorrect)
  {
    if && 2 <= |q.answers| <= 12
       && CorrectCount(q.answers) == 1
       && forall i :: 0 <= i < |q.answers| ==> |q.answers[i].text| <= 100
    then
      OneCorrect(q.answers);
      true
    else false
  }

  /** A valid question has one correct answer, and every other answer is wrong. */
  lemma {:induction false} OneCorrect(answers: seq<Answer>)
    requires CorrectCount(answers) == 1
    ensures exists k :: 0 <= k < |answers| && answers[k].isCorrect &&
                        (forall i :: 0 <= i < |answers| && i != k ==> !answers[i].isCorrect)
  {
    if answers[0].isCorrect {
      assert CorrectCount(answers[1..]) == 0;
      forall i | 1 <= i < |answers| ensures !answers[i].isCorrect {
        assert answers[1..][i - 1] == answers[i];
      }
    } else {
      OneCorrect(answers[1..]);
      var k :| 0 <= k < |answers[1..]| && answers[1..][k].isCorrect &&
               (forall i :: 0 <= i < |answers[1..]| && i != k ==> !answers[1..][i].isCorrect);
      forall i | 0 <= i < |answers| && i != k + 1 ensures !answers[i].isCorrect {
        if i > 0 {
          assert answers[1..][i - 1] == answers[i];
        }
      }
    }
  }
}

=== FILE: text.dfy ===
/** The Python `str` operations the bot's handlers rely on, over strings of code points. */
module Text {
  import opened Wrappers

  predicate StartsWith(s: string, prefix: string) {
    |prefix| <= |s| && s[..|prefix|] == prefix
  }

  /** A common prefix does not change whether one string starts with another. */
  lemma StartsWithAfter(p: string, s: string, q: string)
    ensures StartsWith(p + s, p + q) <==> StartsWith(s, q)
  {
    if |q| <= |s| {
      assert (p + s)[..|p + q|] == p + s[..|q|];
      if StartsWith(p + s, p + q) {
        assert s[..|q|] == (p + s)[..|p + q|][|p|..];
      }
    }
  }

  /** Python's `str.isspace()` for one character: the characters `strip()` removes. */
  predicate IsSpace(c: char) {
    || c == ' ' || '\t' <= c <= '\r' || '\U{1C}' <= c <= '\U{1F}'
    || c == '\U{85}' || c == '\U{A0}' || c == '\U{1680}' || '\U{2000}' <= c <= '\U{200A}'
    || c == '\U{2028}' || c == '\U{2029}' || c == '\U{202F}' || c == '\U{205F}' || c == '\U{3000}'
  }

  /** `s.lstrip()`: drops the leading whitespace. */
  function LStrip(s: string): (r: string)
    ensures |r| <= |s| && r == s[|s| - |r|..]
    ensures forall i :: 0 <= i < |s| - |r| ==> IsSpace(s[i])
    ensures r == [] || !IsSpace(r[0])
  {
    if s != [] && IsSpace(s[0]) then LStrip(s[1..]) else s
  }

  /** `s.rstrip()`: drops the trailing whitespace. */
  function RStrip(s: string): (r: string)
    ensures |r| <= |s| && r == s[..|r|]
    ensures forall i :: |r| <= i < |s| ==> IsSpace(s[i])
    ensures r == [] || !IsSpace(r[|r| - 1])
  {
    if s != [] && IsSpace(s[|s| - 1]) then RStrip(s[..|s| - 1]) else s
  }

  /** `s.lstrip(c)`: drops every leading `c`. */
  function LStripChar(s: string, c: char): string
  {
    if s != [] && s[0] == c then LStripChar(s[1..], c) else s
  }

  /** `lstrip(c)` keeps a suffix, drops only `c`s and leaves no `c` in front. */
  lemma {:induction false} LStripCharSpec(s: string, c: char)
    ensures var r := LStripChar(s, c);
      && |r| <= |s| && r == s[|s| - |r|..]
      && (forall i :: 0 <= i < |s| - |r| ==> s[i] == c)
      && (r == [] || r[0] != c)
  {
    if s != [] && s[0] == c {
      LStripCharSpec(s[1..], c);
      var r := LStripChar(s, c);
      assert s[1..][|s| - 1 - |r|..] == s[|s| - |r|..];
      forall i | 0 <= i < |s| - |r| ensures s[i] == c {
        if i > 0 {
          assert s[i] == s[1..][i - 1];
        }
      }
    }
  }

  /** `s.rstrip(c)`: drops every trailing `c`. */
  function RStripChar(s: string, c: char): (r: string)
    ensures |r| <= |s| && r == s[..|r|]
    ensures forall i :: |r| <= i < |s| ==> s[i] == c
    ensures r == [] || r[|r| - 1] != c
  {
    if s != [] && s[|s| - 1] == c then RStripChar(s[..|s| - 1], c) else s
  }

  /** `s.strip()`. */
  function Strip(s: string): (r: string)
    ensures r == [] || (!IsSpace(r[0]) && !IsSpace(r[|r| - 1]))
  {
    RStrip(LStrip(s))
  }

  /** `strip()` keeps a contiguous part of its input. */
  lemma StripIsInfix(s: string)
    ensures var k := |s| - |LStrip(s)|; k + |Strip(s)| <= |s| && Strip(s) == s[k..k + |Strip(s)|]
  {
  }

  /** `t` is `s` without a run of whitespace in front and a run of whitespace behind. */
  predicate TrimmedOf(t: string, s: string)
  {
    exists k :: 0 <= k <= |s| && TrimmedAt(t, s, k)
  }

  /** `t` is the piece of `s` at `k`, with only whitespace before and after it. */
  predicate TrimmedAt(t: string, s: string, k: int)
  {
    && 0 <= k && k + |t| <= |s| && t == s[k..k + |t|]
    && (forall i :: 0 <= i < k ==> IsSpace(s[i]))
    && (forall i :: k + |t| <= i < |s| ==> IsSpace(s[i]))
  }

  /** `strip()` removes only surrounding whitespace. */
  lemma StripTrims(s: string)
    ensures TrimmedOf(Strip(s), s)
  {
    StripTrimsAt(s);
  }

  lemma StripTrimsAt(s: string)
    ensures TrimmedAt(Strip(s), s, |s| - |LStrip(s)|)
  {
    TrimmedParts(s, LStrip(s), Strip(s));
  }

  /** A prefix `t` of a suffix `l` of `s`, with only whitespace cut off on either side, is a
      trimmed piece of `s`. */
  lemma TrimmedParts(s: string, l: string, t: string)
    requires |l| <= |s| && l == s[|s| - |l|..] && forall i :: 0 <= i < |s| - |l| ==> IsSpace(s[i])
    requires |t| <= |l| && t == l[..|t|] && forall i :: |t| <= i < |l| ==> IsSpace(l[i])
    ensures TrimmedAt(t, s, |s| - |l|)
  {
    var k := |s| - |l|;
    assert t == s[k..k + |t|];
    forall i | k + |t| <= i < |s| ensures IsSpace(s[i]) {
      assert s[i] == l[i - k];
    }
  }

  /** Stripping adds no upper-case letter. */
  lemma StripKeepsLower(s: string)
    requires NoUpper(s)
    ensures NoUpper(Strip(s))
  {
    StripIsInfix(s);
    var k := |s| - |LStrip(s)|;
    NoUpperSlice(s, k, k + |Strip(s)|);
  }

  lemma StripKeepsTrimmed(s: string)
    requires s != [] && !IsSpace(s[0]) && !IsSpace(s[|s| - 1])
    ensures Strip(s) == s
  {
    assert LStrip(s) == s;
    assert RStrip(s) == s;
  }

  /** `s.replace(pattern, replacement)`: occurrences replaced left to right, without overlap. */
  function ReplaceAll(s: string, pattern: string, replacement: string): (r: string)
    requires pattern != []
    ensures replacement == pattern ==> r == s
    ensures |replacement| <= |pattern| ==> |r| <= |s|
    decreases |s|
  {
    if s == [] then []
    else if StartsWith(s, pattern) then
      assert s == s[..|pattern|] + s[|pattern|..];
      replacement + ReplaceAll(s[|pattern|..], pattern, replacement)
    else [s[0]] + ReplaceAll(s[1..], pattern, replacement)
  }

  /** `replace` on pieces in which the pattern cannot start, joined by the pattern, gives the
      same pieces joined by the replacement. */
  lemma {:induction false} ReplaceAllJoin(parts: seq<string>, pattern: string, replacement: string)
    requires pattern != []
    requires forall i :: 0 <= i < |parts| ==> pattern[0] !in parts[i]
    ensures ReplaceAll(Join(parts, pattern), pattern, replacement) == Join(parts, replacement)
    decreases |parts|
  {
    if |parts| == 1 {
      ReplaceAllWithoutFirstChar(parts[0], pattern, replacement);
    } else if |parts| > 1 {
      var rest := Join(parts[1..], pattern);
      assert Join(parts, pattern) == parts[0] + (pattern + rest);
      ReplaceAllSkips(parts[0], pattern + rest, pattern, replacement);
      ReplaceAllAtPattern(pattern, rest, replacement);
      ReplaceAllJoin(parts[1..], pattern, replacement);
      assert Join(parts, replacement) == parts[0] + (replacement + Join(parts[1..], replacement));
    }
  }

  /** An occurrence at the front is replaced and the scan goes on after it. */
  lemma ReplaceAllAtPattern(pattern: string, rest: string, replacement: string)
    requires pattern != []
    ensures ReplaceAll(pattern + rest, pattern, replacement) == replacement + ReplaceAll(rest, pattern, replacement)
  {
    assert StartsWith(pattern + rest, pattern) by {
      assert (pattern + rest)[..|pattern|] == pattern;
    }
    assert (pattern + rest)[|pattern|..] == rest;
  }

  /** A stretch in which the pattern cannot start is kept and the scan goes on after it. */
  lemma {:induction false} ReplaceAllSkips(a: string, rest: string, pattern: string, replacement: string)
    requires pattern != [] && pattern[0] !in a
    ensures ReplaceAll(a + rest, pattern, replacement) == a + ReplaceAll(rest, pattern, replacement)
    decreases |a|
  {
    if a != [] {
      var s := a + rest;
      assert s[0] == a[0] && s[0] != pattern[0];
      assert !StartsWith(s, pattern);
      assert s[1..] == a[1..] + rest;
      assert pattern[0] !in a[1..] by {
        forall i | 0 <= i < |a[1..]| ensures a[1..][i] != pattern[0] {
          assert a[1..][i] == a[i + 1];
        }
      }
      ReplaceAllSkips(a[1..], rest, pattern, replacement);
      assert a == [a[0]] + a[1..];
    } else {
      assert a + rest == rest;
    }
  }

  /** `pattern in s`: some position of `s` starts an occurrence of `pattern`. */
  predicate Contains(s: string, pattern: string)
  {
    exists i :: 0 <= i <= |s| && StartsWith(s[i..], pattern)
  }

  /** A string that does not contain the pattern is left alone by `replace`. */
  lemma {:induction false} ReplaceAllAbsent(s: string, pattern: string, replacement: string)
    requires pattern != [] && !Contains(s, pattern)
    ensures ReplaceAll(s, pattern, replacement) == s
    decreases |s|
  {
    if s != [] {
      assert s[0..] == s;
      assert !Contains(s[1..], pattern) by {
        forall i | 0 <= i <= |s[1..]| ensures !StartsWith(s[1..][i..], pattern) {
          assert s[1..][i..] == s[i + 1..];
        }
      }
      ReplaceAllAbsent(s[1..], pattern, replacement);
      assert s == [s[0]] + s[1..];
    }
  }

  /** A string in which the pattern cannot even start is left alone by `replace`. */
  lemma {:induction false} ReplaceAllWithoutFirstChar(s: string, pattern: string, replacement: string)
    requires pattern != [] && pattern[0] !in s
    ensures ReplaceAll(s, pattern, replacement) == s
    decreases |s|
  {
    if s != [] {
      assert s[0] != pattern[0];
      assert !StartsWith(s, pattern);
      assert pattern[0] !in s[1..] by {
        forall i | 0 <= i < |s[1..]| ensures s[1..][i] != pattern[0] {
          assert s[1..][i] == s[i + 1];
        }
      }
      ReplaceAllWithoutFirstChar(s[1..], pattern, replacement);
      assert s == [s[0]] + s[1..];
    }
  }

  /** `s.split(sep, 1)` when `sep in s`: the text before and after the first `sep`. */
  function SplitOnce(s: string, sep: char): (r: Option<(string, string)>)
    ensures r.None? <==> sep !in s
    ensures r.Some? ==> s == r.value.0 + [sep] + r.value.1 && sep !in r.value.0
  {
    if s == [] then None
    else if s[0] == sep then Some(([], s[1..]))
    else
      match SplitOnce(s[1..], sep)
      case None => None
      case Some((head, tail)) => Some(([s[0]] + head, tail))
  }

  /** The split happens at the first separator, wherever the rest has others. */
  lemma {:induction false} SplitOnceAtFirst(head: string, sep: char, tail: string)
    requires sep !in head
    ensures SplitOnce(head + [sep] + tail, sep) == Some((head, tail))
  {
    var s := head + [sep] + tail;
    if head == [] {
      assert s[0] == sep && s[1..] == tail;
    } else {
      assert s[0] == head[0] && head[0] != sep;
      assert s[1..] == head[1..] + [sep] + tail;
      SplitOnceAtFirst(head[1..], sep, tail);
      assert [head[0]] + head[1..] == head;
    }
  }

  /** `sep.join(parts)`. */
  function Join(parts: seq<string>, sep: string): string
  {
    if parts == [] then ""
    else if |parts| == 1 then parts[0]
    else parts[0] + sep + Join(parts[1..], sep)
  }

  lemma {:induction false} JoinAppend(a: seq<string>, b: seq<string>, sep: string)
    requires a != [] && b != []
    ensures Join(a + b, sep) == Join(a, sep) + sep + Join(b, sep)
  {
    if |a| == 1 {
      assert (a + b)[1..] == b;
    } else {
      assert (a + b)[1..] == a[1..] + b;
      JoinAppend(a[1..], b, sep);
    }
  }

  /** `s.split(sep)`: the pieces between occurrences of `sep`. */
  function Split(s: string, sep: char): (r: seq<string>)
    ensures |r| >= 1
    ensures forall i :: 0 <= i < |r| ==> sep !in r[i]
    ensures Join(r, [sep]) == s
    decreases |s|
  {
    match SplitOnce(s, sep)
    case None => [s]
    case Some((head, tail)) => [head] + Split(tail, sep)
  }

  /** Joining pieces that do not contain the separator and splitting again gives the pieces back. */
  lemma {:induction false} SplitJoin(parts: seq<string>, sep: char)
    requires |parts| >= 1
    requires forall i :: 0 <= i < |parts| ==> sep !in parts[i]
    ensures Split(Join(parts, [sep]), sep) == parts
    decreases |parts|
  {
    if |parts| > 1 {
      var rest := Join(parts[1..], [sep]);
      assert Join(parts, [sep]) == parts[0] + [sep] + rest;
      SplitOnceAtFirst(parts[0], sep, rest);
      SplitJoin(parts[1..], sep);
      assert parts == [parts[0]] + parts[1..];
    }
  }

  /** `s.count(c)` for a single character. */
  function Count(s: string, c: char): (r: nat)
    ensures r <= |s|
    ensures r == 0 <==> c !in s
  {
    if s == [] then 0 else (if s[0] == c then 1 else 0) + Count(s[1..], c)
  }

  lemma {:induction false} CountAppend(a: string, b: string, c: char)
    ensures Count(a + b, c) == Count(a, c) + Count(b, c)
  {
    if a == [] {
      assert a + b == b;
    } else {
      assert (a + b)[1..] == a[1..] + b;
      CountAppend(a[1..], b, c);
    }
  }

  lemma {:induction false} CountAbsent(s: string, c: char)
    requires c !in s
    ensures Count(s, c) == 0
  {
    if s != [] {
      assert c !in s[1..] by {
        forall i | 0 <= i < |s[1..]| ensures s[1..][i] != c {
          assert s[1..][i] == s[i + 1];
        }
      }
      CountAbsent(s[1..], c);
    }
  }

  /** The first split consumes exactly one separator. */
  lemma SplitOnceCount(s: string, sep: char)
    ensures SplitOnce(s, sep).None? ==> Count(s, sep) == 0
    ensures SplitOnce(s, sep).Some? ==> Count(s, sep) == 1 + Count(SplitOnce(s, sep).value.1, sep)
  {
    match SplitOnce(s, sep)
    case None =>
      CountAbsent(s, sep);
    case Some((head, tail)) =>
      CountAbsent(head, sep);
      CountAppend(head + [sep], tail, sep);
      CountAppend(head, [sep], sep);
  }

  /** `s.split(sep)` has one piece more than `s` has separators. */
  lemma {:induction false} SplitLength(s: string, sep: char)
    ensures |Split(s, sep)| == Count(s, sep) + 1
    decreases |s|
  {
    SplitOnceCount(s, sep);
    match SplitOnce(s, sep)
    case None =>
    case Some((head, tail)) =>
      SplitLength(tail, sep);
  }

  predicate IsUpper(c: char) { 'A' <= c <= 'Z' }

  /** `str.lower()` on one character, for the ASCII letters. */
  function LowerChar(c: char): (r: char)
    ensures !IsUpper(r)
  {
    if 'A' <= c <= 'Z' then (c as int + 32) as char else c
  }

  /** No character of `s` is an upper-case letter. */
  predicate NoUpper(s: string)
  {
    forall i :: 0 <= i < |s| ==> !IsUpper(s[i])
  }

  /** `s.lower()`: every letter in lower case, nothing else changed. */
  function Lower(s: string): (r: string)
    ensures |r| == |s| && forall i :: 0 <= i < |s| ==> r[i] == LowerChar(s[i])
    ensures NoUpper(r)
  {
    seq(|s|, i requires 0 <= i < |s| => LowerChar(s[i]))
  }

  lemma NoUpperSlice(s: string, a: int, b: int)
    requires NoUpper(s) && 0 <= a <= b <= |s|
    ensures NoUpper(s[a..b])
  {
    forall i | 0 <= i < b - a ensures !IsUpper(s[a..b][i]) {
      assert s[a..b][i] == s[a + i];
    }
  }

  lemma NoUpperPrepend(c: char, s: string)
    requires !IsUpper(c) && NoUpper(s)
    ensures NoUpper([c] + s)
  {
    forall i | 1 <= i < |s| + 1 ensures !IsUpper(([c] + s)[i]) {
      assert ([c] + s)[i] == s[i - 1];
    }
  }

  predicate IsDigit(c: char) { '0' <= c <= '9' }

  predicate AllDigits(s: string) { forall i :: 0 <= i < |s| ==> IsDigit(s[i]) }

  function DigitChar(d: nat): (c: char)
    requires d < 10
    ensures IsDigit(c)
  {
    ('0' as int + d) as char
  }

  function DigitValue(c: char): nat
    requires IsDigit(c)
  {
    c as int - '0' as int
  }

  /** `str(n)` for a natural number. */
  function NatToString(n: nat): (r: string)
    ensures r != [] && AllDigits(r)
    decreases n
  {
    if n < 10 then [DigitChar(n)] else NatToString(n / 10) + [DigitChar(n % 10)]
  }

  /** `str(i)` for an integer. */
  function IntToString(i: int): (r: string)
    ensures r != [] && (r[0] == '-' <==> i < 0)
    ensures i >= 0 ==> AllDigits(r)
    ensures i < 0 ==> AllDigits(r[1..])
  {
    if i < 0 then "-" + NatToString(-i) else NatToString(i)
  }

  /** The value of a decimal digit string, most significant digit first. */
  function DigitsValue(s: string): nat
    requires AllDigits(s)
    decreases |s|
  {
    if s == [] then 0 else DigitsValue(s[..|s| - 1]) * 10 + DigitValue(s[|s| - 1])
  }

  lemma {:induction false} NatToStringRoundTrip(n: nat)
    ensures DigitsValue(NatToString(n)) == n
    decreases n
  {
    if n >= 10 {
      var s := NatToString(n);
      assert s[..|s| - 1] == NatToString(n / 10);
      NatToStringRoundTrip(n / 10);
    }
  }

  /** Digits separated by single underscores, the body `int()` accepts after an optional sign. */
  predicate IsDigitGroups(s: string) {
    && s != [] && IsDigit(s[0]) && IsDigit(s[|s| - 1])
    && (forall i :: 0 <= i < |s| ==> IsDigit(s[i]) || s[i] == '_')
    && (forall i :: 0 <= i < |s| - 1 ==> !DoubleUnderscoreAt(s, i))
  }

  predicate DoubleUnderscoreAt(s: string, i: nat)
    requires i + 1 < |s|
  {
    s[i] == '_' && s[i + 1] == '_'
  }

  function WithoutUnderscores(s: string): (r: string)
    requires forall i :: 0 <= i < |s| ==> IsDigit(s[i]) || s[i] == '_'
    ensures AllDigits(r)
  {
    if s == [] then [] else (if s[0] == '_' then [] else [s[0]]) + WithoutUnderscores(s[1..])
  }

  lemma {:induction false} WithoutUnderscoresOfDigits(s: string)
    requires AllDigits(s)
    ensures WithoutUnderscores(s) == s
  {
    if s != [] {
      WithoutUnderscoresOfDigits(s[1..]);
      assert s == [s[0]] + s[1..];
    }
  }

  /** The ASCII information separators U+001C..U+001F. `isspace()` accepts them, but the
      whitespace `int()` skips around a number does not include them. */
  predicate IsInfoSeparator(c: char) { '\U{1C}' <= c <= '\U{1F}' }

  predicate HasInfoSeparator(s: string) { exists i :: 0 <= i < |s| && IsInfoSeparator(s[i]) }

  /** Python's `int(s)` on a string: surrounding whitespace, an optional sign, decimal digits.
      `int()` skips the whitespace of `strip()` except the information separators, so one of
      those stays in front of, behind or inside the number, and the text is rejected. */
  function ParseInt(s: string): (r: Option<int>)
    ensures r.Some? ==> exists i :: 0 <= i < |s| && IsDigit(s[i])
    ensures r.Some? && r.value < 0 ==> '-' in s
    ensures r.Some? ==> forall i :: 0 <= i < |s| ==> !IsInfoSeparator(s[i])
  {
    if HasInfoSeparator(s) then None
    else
      StrippedNumber(s);
      ParseTrimmed(Strip(s))
  }

  /** What `ParseTrimmed` finds in the stripped text is in the text itself. */
  lemma StrippedNumber(s: string)
    ensures ParseTrimmed(Strip(s)).Some? ==> exists i :: 0 <= i < |s| && IsDigit(s[i])
    ensures ParseTrimmed(Strip(s)).Some? && ParseTrimmed(Strip(s)).value < 0 ==> '-' in s
  {
    var t := Strip(s);
    StripIsInfix(s);
    var k := |s| - |LStrip(s)|;
    if t != [] {
      assert t[0] == s[k] && t[|t| - 1] == s[k + |t| - 1];
    }
  }

  /** `int(t)` once the surrounding whitespace is gone: an optional sign, then digit groups. */
  function ParseTrimmed(t: string): (r: Option<int>)
    ensures r.Some? ==> t != [] && IsDigit(t[|t| - 1])
    ensures r.Some? && r.value < 0 ==> t[0] == '-'
    ensures r.Some? ==> forall i :: 0 <= i < |t| ==> IsNumeral(t, i)
  {
    if t != [] && (t[0] == '+' || t[0] == '-') then
      if IsDigitGroups(t[1..]) then
        assert forall i :: 1 <= i < |t| ==> t[i] == t[1..][i - 1];
        var n: int := DigitsValue(WithoutUnderscores(t[1..]));
        Some(if t[0] == '-' then -n else n)
      else None
    else if IsDigitGroups(t) then Some(DigitsValue(WithoutUnderscores(t)))
    else None
  }

  /** Position `i` of `t` may appear in a number `int()` accepts: a digit, an underscore, or a
      sign in front. */
  predicate IsNumeral(t: string, i: int)
    requires 0 <= i < |t|
  {
    IsDigit(t[i]) || t[i] == '_' || (i == 0 && (t[i] == '+' || t[i] == '-'))
  }

  /** An information separator next to a number makes `int()` fail. */
  lemma SeparatorRejected()
    ensures ParseInt("\U{1C}5") == None
    ensures ParseInt("5\U{1F}") == None
  {
    assert IsInfoSeparator("\U{1C}5"[0]);
    assert IsInfoSeparator("5\U{1F}"[1]);
  }

  lemma ParseDigits(digits: string)
    requires digits != [] && AllDigits(digits)
    ensures ParseInt(digits) == Some(DigitsValue(digits))
  {
    assert !HasInfoSeparator(digits);
    StripKeepsTrimmed(digits);
    WithoutUnderscoresOfDigits(digits);
    assert IsDigitGroups(digits);
    assert ParseTrimmed(digits) == Some(DigitsValue(digits));
  }

  /** A minus sign before decimal digits, once nothing is left to strip. */
  lemma ParseTrimmedNegated(digits: string)
    requires digits != [] && AllDigits(digits)
    ensures ParseTrimmed("-" + digits) == Some(-(DigitsValue(digits) as int))
  {
    assert ("-" + digits)[1..] == digits;
    WithoutUnderscoresOfDigits(digits);
    assert IsDigitGroups(digits);
  }

  /** `int(str(i)) == i`. */
  lemma IntToStringRoundTrip(i: int)
    ensures ParseInt(IntToString(i)) == Some(i)
  {
    if i < 0 {
      NegRoundTrip(i);
    } else {
      NonNegRoundTrip(i);
    }
  }

  lemma NegRoundTrip(i: int)
    requires i < 0
    ensures ParseInt(IntToString(i)) == Some(i)
  {
    var n: nat := -i;
    var d := NatToString(n);
    var s := IntToString(i);
    assert s == "-" + d;
    assert s[|s| - 1] == d[|d| - 1];
    assert !HasInfoSeparator(s) by {
      assert forall j :: 1 <= j < |s| ==> s[j] == d[j - 1];
    }
    StripKeepsTrimmed(s);
    ParseTrimmedNegated(d);
    NatToStringRoundTrip(n);
  }

  lemma NonNegRoundTrip(i: nat)
    ensures ParseInt(IntToString(i)) == Some(i)
  {
    var d := NatToString(i);
    NatToStringRoundTrip(i);
    ParseDigits(d);
    assert ParseInt(d) == Some(i);
    assert IntToString(i) == d;
  }
}

=== FILE: whitelist.dfy ===
/** The access check of the bot: a cache from tags to member usernames, refreshed from NocoDB. */
module Whitelist {
  import opened Wrappers
  import opened Text
  import NocoDB

  /** What `nocodb.members(name, kind)` answers at the moment of a refresh. Every refresh takes
      the answers of its own moment, so membership may change between two refreshes. */
  type MembershipSource = (string, NocoDB.Kind) -> seq<string>

  /** The tag cache built at startup: "areas", "workgroups", "projects", "roles" to tag lists. */
  type TagCache = map<string, seq<string>>

  /** The whitelist dictionary: a tag to the usernames it lists. */
  type Cache = map<string, seq<string>>

  const Everyone := "@everyone"

  function CacheKey(k: NocoDB.Kind): string
  {
    match k
    case Area => "areas"
    case Workgroup => "workgroups"
    case Project => "projects"
    case Role => "roles"
  }

  /** `tag_cache.get(key, [])`. */
  function TagsOf(tc: TagCache, k: NocoDB.Kind): seq<string>
  {
    if CacheKey(k) in tc then tc[CacheKey(k)] else []
  }

  /** The dictionary after the loop over the tags of one kind: each tag gets the members of
      its name without the leading `@`, assigned in list order. */
  function FillKind(w: Cache, tags: seq<string>, k: NocoDB.Kind, source: MembershipSource): (r: Cache)
    ensures r.Keys == w.Keys + (set t | t in tags)
  {
    if tags == [] then w
    else
      var t := tags[|tags| - 1];
      assert tags == tags[..|tags| - 1] + [t];
      FillKind(w, tags[..|tags| - 1], k, source)[t := source(LStripChar(t, '@'), k)]
  }

  /** Assigning one more tag at the end of the loop. */
  lemma FillKindStep(w: Cache, tags: seq<string>, t: string, k: NocoDB.Kind, source: MembershipSource)
    ensures FillKind(w, tags + [t], k, source) == FillKind(w, tags, k, source)[t := source(LStripChar(t, '@'), k)]
  {
    assert (tags + [t])[..|tags|] == tags;
  }

  /** One loop adds its tags, answers each with the members of its own name (a repeated tag gets
      the same answer again) and keeps every other entry. */
  lemma {:induction false} FillKindAt(w: Cache, tags: seq<string>, k: NocoDB.Kind, source: MembershipSource, t: string)
    ensures t in FillKind(w, tags, k, source) <==> t in w || t in tags
    ensures t in tags ==> FillKind(w, tags, k, source)[t] == source(LStripChar(t, '@'), k)
    ensures t in w && t !in tags ==> FillKind(w, tags, k, source)[t] == w[t]
  {
    if tags != [] {
      var init, last := tags[..|tags| - 1], tags[|tags| - 1];
      assert tags == init + [last];
      assert t in tags <==> t in init || t == last;
      FillKindStep(w, init, last, k, source);
      FillKindAt(w, init, k, source, t);
    }
  }

  /** The kind whose loop assigns a tag last: roles run after projects, after workgroups,
      after areas. */
  function LastKind(tc: TagCache, t: string): Option<NocoDB.Kind>
  {
    if t in TagsOf(tc, NocoDB.Role) then Some(NocoDB.Role)
    else if t in TagsOf(tc, NocoDB.Project) then Some(NocoDB.Project)
    else if t in TagsOf(tc, NocoDB.Workgroup) then Some(NocoDB.Workgroup)
    else if t in TagsOf(tc, NocoDB.Area) then Some(NocoDB.Area)
    else None
  }

  /** The dictionary after the four loops of `_update_cache`. */
  function Filled(w: Cache, tc: TagCache, source: MembershipSource): (r: Cache)
    ensures r.Keys == w.Keys + (set t | t in TagsOf(tc, NocoDB.Area)) + (set t | t in TagsOf(tc, NocoDB.Workgroup))
      + (set t | t in TagsOf(tc, NocoDB.Project)) + (set t | t in TagsOf(tc, NocoDB.Role))
  {
    var a := FillKind(w, TagsOf(tc, NocoDB.Area), NocoDB.Area, source);
    var g := FillKind(a, TagsOf(tc, NocoDB.Workgroup), NocoDB.Workgroup, source);
    var p := FillKind(g, TagsOf(tc, NocoDB.Project), NocoDB.Project, source);
    FillKind(p, TagsOf(tc, NocoDB.Role), NocoDB.Role, source)
  }

  /** After the four loops every cached tag holds the members of its last kind and every
      other entry is kept. */
  lemma FilledAt(w: Cache, tc: TagCache, source: MembershipSource, t: string)
    ensures t in Filled(w, tc, source) <==> t in w || LastKind(tc, t).Some?
    ensures LastKind(tc, t).Some? ==> Filled(w, tc, source)[t] == source(LStripChar(t, '@'), LastKind(tc, t).value)
    ensures t in w && LastKind(tc, t).None? ==> Filled(w, tc, source)[t] == w[t]
  {
    var a := FillKind(w, TagsOf(tc, NocoDB.Area), NocoDB.Area, source);
    var g := FillKind(a, TagsOf(tc, NocoDB.Workgroup), NocoDB.Workgroup, source);
    var p := FillKind(g, TagsOf(tc, NocoDB.Project), NocoDB.Project, source);
    FillKindAt(w, TagsOf(tc, NocoDB.Area), NocoDB.Area, source, t);
    FillKindAt(a, TagsOf(tc, NocoDB.Workgroup), NocoDB.Workgroup, source, t);
    FillKindAt(g, TagsOf(tc, NocoDB.Project), NocoDB.Project, source, t);
    FillKindAt(p, TagsOf(tc, NocoDB.Role), NocoDB.Role, source, t);
  }

  /** The usernames listed under the given keys. */
  ghost function MembersOf(w: Cache, keys: set<string>): set<string>
  {
    set t, u | t in keys && t in w && u in w[t] :: u
  }

  predicate NoDuplicates(s: seq<string>)
  {
    forall i, j :: 0 <= i < j < |s| ==> s[i] != s[j]
  }

  /** `w1` is the dictionary `_update_cache` leaves behind when it starts from `w0`: the four
      loops, then "@everyone" set to the members of every entry, its own old value included,
      in some order and without repetition. */
  ghost predicate IsRefresh(w0: Cache, w1: Cache, tc: TagCache, source: MembershipSource)
    ensures IsRefresh(w0, w1, tc, source) ==> w1.Keys == Filled(w0, tc, source).Keys + {Everyone}
  {
    var f := Filled(w0, tc, source);
    && Everyone in w1
    && w1 == f[Everyone := w1[Everyone]]
    && NoDuplicates(w1[Everyone])
    && (forall u :: u in w1[Everyone] <==> u in MembersOf(f, f.Keys))
  }

  /** The first pass of `is_user_whitelisted`: a tag naming the user, or a listed tag. */
  predicate FirstPassGrants(w: Cache, user: string, tags: seq<string>)
  {
    exists i :: 0 <= i < |tags| && (tags[i] == user || (tags[i] in w && user in w[tags[i]]))
  }

  /** The second pass: a listed tag only. */
  predicate Listed(w: Cache, user: string, tags: seq<string>)
  {
    exists i :: 0 <= i < |tags| && tags[i] in w && user in w[tags[i]]
  }

  lemma MembersOfAdd(w: Cache, done: set<string>, t: string)
    requires t in w
    ensures MembersOf(w, done + {t}) == MembersOf(w, done) + (set u | u in w[t])
  {
  }

  /** `list(all_members)`: the members of a set in some order, each once. */
  method ListOf(s: set<string>) returns (r: seq<string>)
    ensures NoDuplicates(r)
    ensures forall x :: x in r <==> x in s
  {
    r := [];
    var rest := s;
    while rest != {}
      invariant rest <= s
      invariant NoDuplicates(r)
      invariant forall x :: x in r <==> x in s && x !in rest
      decreases |rest|
    {
      var x :| x in rest;
      r := r + [x];
      rest := rest - {x};
    }
  }

  /** The usernames of every entry, gathered entry by entry in some order. */
  method AllMembers(w: Cache) returns (all: set<string>)
    ensures all == MembersOf(w, w.Keys)
  {
    all := {};
    var rest := w.Keys;
    while rest != {}
      invariant rest <= w.Keys
      invariant all == MembersOf(w, w.Keys - rest)
      decreases |rest|
    {
      var t :| t in rest;
      MembersOfAdd(w, w.Keys - rest, t);
      assert w.Keys - (rest - {t}) == (w.Keys - rest) + {t};
      all := all + set u | u in w[t];
      rest := rest - {t};
    }
  }

  class Whitelist {
    var whitelist: Cache
    const tagCache: TagCache

    /** `Whitelist(tag_cache, nocodb)`: an empty dictionary, then one refresh. */
    constructor (tagCache: TagCache, source: MembershipSource)
      ensures this.tagCache == tagCache
      ensures IsRefresh(map[], whitelist, tagCache, source)
    {
      this.tagCache := tagCache;
      whitelist := map[];
      new;
      UpdateCache(source);
    }

    /** One loop of `_update_cache`: the tags of kind `k`, assigned in list order. */
    method FillTags(tags: seq<string>, k: NocoDB.Kind, source: MembershipSource)
      modifies this
      ensures whitelist == FillKind(old(whitelist), tags, k, source)
    {
      ghost var w0 := whitelist;
      for i := 0 to |tags|
        invariant whitelist == FillKind(w0, tags[..i], k, source)
      {
        assert tags[..i + 1][..i] == tags[..i];
        whitelist := whitelist[tags[i] := source(LStripChar(tags[i], '@'), k)];
      }
      assert tags[..|tags|] == tags;
    }

    /** `_update_cache`: the four loops in place, then "@everyone" from every entry. */
    method UpdateCache(source: MembershipSource)
      modifies this
      ensures IsRefresh(old(whitelist), whitelist, tagCache, source)
    {
      FillTags(TagsOf(tagCache, NocoDB.Area), NocoDB.Area, source);
      FillTags(TagsOf(tagCache, NocoDB.Workgroup), NocoDB.Workgroup, source);
      FillTags(TagsOf(tagCache, NocoDB.Project), NocoDB.Project, source);
      FillTags(TagsOf(tagCache, NocoDB.Role), NocoDB.Role, source);
      assert whitelist == Filled(old(whitelist), tagCache, source);
      var all := AllMembers(whitelist);
      var everyone := ListOf(all);
      whitelist := whitelist[Everyone := everyone];
    }

    /** `is_user_whitelisted(username, tags)`: allowed at once when a tag names the user or
        lists them; otherwise the cache is refreshed and the tags are checked once more. */
    method IsUserWhitelisted(username: string, tags: seq<string>, source: MembershipSource) returns (ok: bool)
      modifies this
      ensures FirstPassGrants(old(whitelist), "@" + username, tags) ==> ok && whitelist == old(whitelist)
      ensures !FirstPassGrants(old(whitelist), "@" + username, tags) ==>
        IsRefresh(old(whitelist), whitelist, tagCache, source) && (ok <==> Listed(whitelist, "@" + username, tags))
    {
      var user := "@" + username;
      ok := FirstPass(whitelist, user, tags);
      if ok {
        return;
      }
      UpdateCache(source);
      ok := SecondPass(whitelist, user, tags);
    }
  }

  /** The first loop of `is_user_whitelisted`: stops at the first tag that names the user or
      lists them. */
  method FirstPass(w: Cache, user: string, tags: seq<string>) returns (found: bool)
    ensures found <==> FirstPassGrants(w, user, tags)
  {
    for i := 0 to |tags|
      invariant forall j :: 0 <= j < i ==> tags[j] != user && !(tags[j] in w && user in w[tags[j]])
    {
      if tags[i] == user {
        return true;
      } else if tags[i] in w && user in w[tags[i]] {
        return true;
      }
    }
    return false;
  }

  /** The loop after the refresh: stops at the first tag that lists the user. */
  method SecondPass(w: Cache, user: string, tags: seq<string>) returns (found: bool)
    ensures found <==> Listed(w, user, tags)
  {
    for i := 0 to |tags|
      invariant forall j :: 0 <= j < i ==> !(tags[j] in w && user in w[tags[j]])
    {
      if tags[i] in w && user in w[tags[i]] {
        return true;
      }
    }
    return false;
  }

  /** The whitelist gate of a command: with the feature switched on, `is_user_whitelisted`
      decides; with it off, the check is not even made. */
  method Admits(enabled: bool, wl: Whitelist, username: string, tags: seq<string>, source: MembershipSource)
    returns (allowed: bool)
    modifies wl
    ensures !enabled ==> allowed && wl.whitelist == old(wl.whitelist)
    ensures enabled && FirstPassGrants(old(wl.whitelist), "@" + username, tags) ==>
      allowed && wl.whitelist == old(wl.whitelist)
    ensures enabled && !FirstPassGrants(old(wl.whitelist), "@" + username, tags) ==>
      && IsRefresh(old(wl.whitelist), wl.whitelist, wl.tagCache, source)
      && (allowed <==> Listed(wl.whitelist, "@" + username, tags))
  {
    if !enabled {
      return true;
    }
    allowed := wl.IsUserWhitelisted(username, tags, source);
  }

  /** A refresh never drops a key: tags that left the tag cache keep their old members. */
  lemma RefreshKeepsKeys(w0: Cache, w1: Cache, tc: TagCache, source: MembershipSource)
    requires IsRefresh(w0, w1, tc, source)
    ensures forall t :: t in w0 ==> t in w1
    ensures forall t :: t in w0 && t != Everyone && LastKind(tc, t).None? ==> w1[t] == w0[t]
  {
    forall t | t in w0
      ensures t in w1
      ensures t != Everyone && LastKind(tc, t).None? ==> w1[t] == w0[t]
    {
      FilledAt(w0, tc, source, t);
    }
  }

  /** After a refresh, a cached tag holds what NocoDB answers for its name now. */
  lemma RefreshedTag(w0: Cache, w1: Cache, tc: TagCache, source: MembershipSource, t: string)
    requires IsRefresh(w0, w1, tc, source)
    requires t != Everyone && LastKind(tc, t).Some?
    ensures t in w1 && w1[t] == source(LStripChar(t, '@'), LastKind(tc, t).value)
  {
    FilledAt(w0, tc, source, t);
  }

  /** After a refresh, "@everyone" lists every member of every entry. */
  lemma EveryoneCoversEntries(w0: Cache, w1: Cache, tc: TagCache, source: MembershipSource, t: string, u: string)
    requires IsRefresh(w0, w1, tc, source)
    requires t in w1 && u in w1[t]
    ensures u in w1[Everyone]
  {
    var f := Filled(w0, tc, source);
    if t != Everyone {
      assert t in f && f[t] == w1[t];
      assert u in MembersOf(f, f.Keys);
    }
  }

  /** The old "@everyone" is merged into the new one: when "@everyone" is not itself a cached
      tag, a refresh never removes anybody from it. */
  lemma EveryoneGrows(w0: Cache, w1: Cache, tc: TagCache, source: MembershipSource, u: string)
    requires IsRefresh(w0, w1, tc, source)
    requires LastKind(tc, Everyone).None?
    requires Everyone in w0 && u in w0[Everyone]
    ensures u in w1[Everyone]
  {
    var f := Filled(w0, tc, source);
    FilledAt(w0, tc, source, Everyone);
    assert u in MembersOf(f, f.Keys);
  }

  /** Built from an empty dictionary, "@everyone" is exactly the union of the cached tags. */
  lemma FirstRefreshEveryoneIsUnion(w1: Cache, tc: TagCache, source: MembershipSource, u: string)
    requires IsRefresh(map[], w1, tc, source)
    requires LastKind(tc, Everyone).None?
    ensures u in w1[Everyone] <==> exists t :: t in w1 && t != Everyone && u in w1[t]
  {
    var f := Filled(map[], tc, source);
    FilledAt(map[], tc, source, Everyone);
    if u in w1[Everyone] {
      var t :| t in f && u in f[t];
      assert t in w1 && t != Everyone && u in w1[t];
    }
    if exists t :: t in w1 && t != Everyone && u in w1[t] {
      var t :| t in w1 && t != Everyone && u in w1[t];
      EveryoneCoversEntries(map[], w1, tc, source, t, u);
    }
  }

  /** A user removed from every tag stays in "@everyone": the only role tag lists "@bob" at
      startup and nobody at the next refresh, yet "@bob" is still in "@everyone". */
  lemma RemovedMemberStaysInEveryone(w0: Cache, w1: Cache)
    requires IsRefresh(map[], w0, map["roles" := ["@lead"]], (name, k) => ["@bob"])
    requires IsRefresh(w0, w1, map["roles" := ["@lead"]], (name, k) => [])
    ensures w1["@lead"] == [] && "@bob" in w1[Everyone]
  {
    var tc: TagCache := map["roles" := ["@lead"]];
    assert LastKind(tc, "@lead") == Some(NocoDB.Role);
    assert LastKind(tc, Everyone).None?;
    RefreshedTag(w0, w1, tc, (name, k) => [], "@lead");
    EveryoneCoversEntries(map[], w0, tc, (name, k) => ["@bob"], "@lead", "@bob") by {
      RefreshedTag(map[], w0, tc, (name, k) => ["@bob"], "@lead");
    }
    EveryoneGrows(w0, w1, tc, (name, k) => [], "@bob");
  }
}

=== FILE: wrappers.dfy ===
/** Optional values and results with an error, as the bot's Python code expresses them
    with `None` and exceptions. */
module Wrappers {

  datatype Option<T> = None | Some(value: T)

  datatype Result<T, E> = Ok(value: T) | Err(error: E)
}
